=== FILE: README.md ===
# Asset maintenance tracker — a Dafny model of the backend core

The system keeps, per user, a list of assets (vehicles, equipment) and a log
of maintenance events against each asset. It has an Express backend (routes →
controllers → services issuing parameterised SQL to PostgreSQL) and a React
front end. This project models:

- the three tables (`users`, `assets`, `maintenances`) as sequences of
  immutable records in one `Store` value;
- every SQL statement of the asset, maintenance and user services as a pure
  function over that store;
- every HTTP handler of the asset, maintenance and auth controllers as a pure
  decision function from (caller, request fields, store) to (response, store);
- the bearer-token middleware;
- the front end's password-strength rule and register-submit gate.

It proves what these promise:

- ownership scoping and cross-user isolation;
- "nothing else changes";
- filter and order properties of the listings and of the due-date summary;
- the status-code decisions;
- round trips: create-then-read, update-then-read, `Split`/`Join` of the
  header, register-then-login.

Modules, one per file:

| file | module | what it holds |
|---|---|---|
| wrappers.dfy | `Wrappers` | `Option`, `Result` |
| relational.dfy | `Relational` | `WHERE`, `UPDATE … WHERE`, `ORDER BY` on sequences, code-unit text order |
| json.dfy | `Json` | request fields (`undefined` / `null` / value) and the coercions applied to them |
| schema.dfy | `Schema` | rows, the store, key constraints (`Valid`) |
| asset_service.dfy | `AssetService` | `backend/src/services/asset.service.ts` |
| maintenance_service.dfy | `MaintenanceService` | `backend/src/services/maintenance.service.ts` |
| user_service.dfy | `UserService` | `backend/src/services/user.service.ts` |
| http.dfy | `Http` | response bodies, `Outcome`, the signed-in test |
| asset_controller.dfy | `AssetController` | `backend/src/controllers/asset.controller.ts` |
| maintenance_controller.dfy | `MaintenanceController` | `backend/src/controllers/maintenance.controller.ts` |
| auth_controller.dfy | `AuthController` | `backend/src/controllers/auth.controller.ts` |
| auth_middleware.dfy | `AuthMiddleware` | `backend/src/middlewares/auth.middleware.ts` |
| auth_page.dfy | `AuthPage` | `validatePassword` and `handleSubmit` of `frontend/src/pages/AuthPage.tsx` |

Modelling decisions:

- **Request fields.** A JSON field is `Absent` (`undefined`), `Null` or
  `Given(v)`. A date field's value is `Blank` (the string `''`) or
  `Date(day)`. This keeps "leave unchanged", "clear" and "set" apart.
- **JavaScript truthiness.** `!x` on a string is `!TruthyText`, so `''` is
  falsy. `x || null`, `x || undefined`, `x ?? false` and
  `x === '' ? null : x` are `DateOrNull`, `TextOrAbsent`/`DateOrAbsent`,
  `FlagOrFalse` and `BlankToNull`.
- **The caller.** `req.user?.id` is an `Option<Id>`. The handlers' `!userId`
  test is `!SignedIn(user)`, which also rejects the empty id.
- **Keys and time.** Generated keys (`newId`), `now` (column defaults and
  `new Date()`) and `today` (`CURRENT_DATE`) are parameters.
- **Foreign code.** bcrypt's hash and compare and JWT's sign and verify are
  function parameters (`hash`, `compare`, `sign`, `verify`).
- **Database errors.** The only error code the code tests is `23505`
  (backend/src/services/user.service.ts:38), mapped to "Username or email
  already exists.". The asset and maintenance services re-throw every error
  alike (backend/src/services/asset.service.ts:98,
  backend/src/services/maintenance.service.ts:133), and their handlers answer
  500. No table definition is part of this model, so which errors can arise
  rests on the schema assumptions listed under "Left out": the model raises
  a NOT NULL violation when `name` or `service_description` is set to `null`
  on a row that matches, and a unique violation on `users.username` or
  `users.email`.
- **SQL order.** `ORDER BY` is modelled as a stable sort. SQL leaves ties
  unspecified, so contracts promise only sortedness and permutation. NULLs
  follow PostgreSQL's defaults: NULLS LAST for `ASC`, NULLS FIRST for
  `DESC`. Text is compared by code unit, which is the C collation; the
  database's actual collation is an assumption (see "Left out").

## Model

| member | source | states |
|---|---|---|
| Json.TruthyText | backend/src/controllers/asset.controller.ts:15 | `!x` on a string field: `undefined`, `null` and `''` are falsy, any other string is truthy |
| Json.TruthyDate | backend/src/controllers/maintenance.controller.ts:28 | `!completion_date`: a missing, null or `''` date is falsy, a date string truthy |
| Json.TruthyFlag | backend/src/controllers/maintenance.controller.ts:28 | `is_completed` is truthy only as `true` |
| Json.DateOrNull | backend/src/services/maintenance.service.ts:17 | `x \|\| null`: a real date binds that day, anything else NULL |
| Json.FlagOrFalse | backend/src/services/maintenance.service.ts:17 | `x ?? false`: the value is true exactly when the flag was sent as `true` |
| Json.TextOrAbsent | backend/src/controllers/maintenance.controller.ts:43 | `x \|\| undefined`: a truthy string is kept unchanged, anything else becomes absent, never null |
| Json.DateOrAbsent | backend/src/controllers/maintenance.controller.ts:41-42 | `x \|\| undefined` on a date: a real date is kept unchanged, anything else becomes absent, never null |
| Json.BlankToNull | backend/src/controllers/maintenance.controller.ts:140-141 | `x === '' ? null : x`: absent stays absent, `''` and null become null, a real date is kept |
| Http.SignedIn | backend/src/controllers/asset.controller.ts:9-14 | `req.user?.id` passes `!userId` only when an id is present and non-empty |
| Relational.TextLe | backend/src/services/asset.service.ts:29 | text order character by character, a prefix first (the C collation) |
| Relational.TextLeTotal | backend/src/services/asset.service.ts:29 | any two names are ordered one way or the other |
| Relational.TextLeTransitive | backend/src/services/asset.service.ts:29 | the text order is transitive |
| AssetService.NameAsc | backend/src/services/asset.service.ts:29 | `ORDER BY name ASC` on assets |
| MaintenanceService.CreatedDesc | backend/src/services/maintenance.service.ts:37 | `ORDER BY created_at DESC` |
| MaintenanceService.IsDue | backend/src/services/maintenance.service.ts:181-183 | `is_completed = FALSE` (so NULL fails), a due date present, and due on or before the limit |
| MaintenanceService.AscNullsLast | backend/src/services/maintenance.service.ts:184 | `ASC` with NULLs after every date |
| MaintenanceService.DescNullsFirst | backend/src/services/maintenance.service.ts:184 | `DESC` with NULLs before every date |
| MaintenanceService.DueOrder | backend/src/services/maintenance.service.ts:184 | next due date ascending, ties broken by completion date descending |
| AssetService.NameAscIsTotalPreorder | backend/src/services/asset.service.ts:29 | `ORDER BY name ASC` is a total preorder, so sorting by it is well defined |
| MaintenanceService.CreatedDescIsTotalPreorder | backend/src/services/maintenance.service.ts:37 | `created_at DESC` is a total preorder |
| MaintenanceService.DueOrderIsTotalPreorder | backend/src/services/maintenance.service.ts:184 | the summary order is a total preorder |
| AssetService.CreateAsset | backend/src/services/asset.service.ts:10-21 | the inserted row carries the new key, the caller as owner, the name, and the description or NULL when absent; both timestamps are `now`; it is appended and no other table changes |
| AssetService.GetAssetsByUserId | backend/src/services/asset.service.ts:28-38 | exactly the caller's assets, each with its multiplicity in the table, sorted by name ascending |
| AssetService.GetAssetByIdAndUserId | backend/src/services/asset.service.ts:47-57 | a result matches both id and owner; null exactly when no asset has that id for that owner, so a missing asset and another user's asset give the same answer |
| AssetService.PatchRows | backend/src/services/asset.service.ts:72-97 | only rows under `(id, user_id)` change, only in the supplied columns (null clears the description); key, owner and both timestamps of every row are unchanged, `updated_at` included |
| AssetService.UpdateAsset | backend/src/services/asset.service.ts:66-102 | with neither field present it returns null and writes nothing; it fails exactly when the name is set to null on an existing row; null (store untouched) when no row matches; otherwise the patched row of the keyed asset |
| AssetService.DeleteAsset | backend/src/services/asset.service.ts:111-121 | reports true iff a row under `(id, user_id)` existed; afterwards exactly the other rows remain, with their multiplicities; users and maintenances are untouched (no foreign key on `maintenances.asset_id` assumed) |
| AssetService.CreateThenGet | backend/src/services/asset.service.ts:10-57 | a created asset is found by its new key and owner, and is in the owner's list |
| AssetService.UpdateThenGet | backend/src/services/asset.service.ts:47-102 | reading back an updated asset yields exactly what the update returned |
| AssetService.DeleteAgreesWithGet | backend/src/services/asset.service.ts:47-121 | delete reports true iff the keyed read would find the asset, and afterwards the read finds nothing |
| AssetService.OtherUsersUntouched | backend/src/services/asset.service.ts:88-116 | whatever user `u` updates or deletes, every asset of every other user stays in the table unchanged |
| AssetService.CreateAssetKeepsValid | backend/src/services/asset.service.ts:10-21 | insert keeps asset ids unique, given an unused key |
| AssetService.UpdateAssetKeepsValid | backend/src/services/asset.service.ts:66-102 | update keeps all key constraints |
| AssetService.DeleteAssetKeepsValid | backend/src/services/asset.service.ts:111-121 | delete keeps all key constraints |
| MaintenanceService.CreateMaintenance | backend/src/services/maintenance.service.ts:9-25 | the row stores the asset id and description; a missing or empty date is stored as NULL and a real date as given; notes stored or NULL; the flag stored as `is_completed ?? false`; timestamps `now`; appended, nothing else changes |
| MaintenanceService.GetMaintenanceLogsByAssetId | backend/src/services/maintenance.service.ts:32-47 | exactly the rows of the asset, with multiplicities, newest `created_at` first |
| MaintenanceService.GetMaintenanceByIdAndAssetId | backend/src/services/maintenance.service.ts:55-69 | a result matches id and asset; null exactly when no row has both, so a log under another asset is not found |
| MaintenanceService.DateColumn | backend/src/services/maintenance.service.ts:92-101 | an absent date keeps the stored one, null or `''` clears it, a date sets it |
| MaintenanceService.PatchRows | backend/src/services/maintenance.service.ts:88-126 | only rows under `(id, asset_id)` change, only in the supplied columns, and those get `updated_at = now`; id, asset and `created_at` of every row are unchanged |
| MaintenanceService.UpdateMaintenance | backend/src/services/maintenance.service.ts:78-137 | the statement always runs (the SET list always holds `updated_at`); it fails exactly when the description is set to null on a matching row; null iff no row matches, with the store untouched; otherwise the patched row |
| MaintenanceService.DeleteMaintenance | backend/src/services/maintenance.service.ts:145-155 | reports true iff a row under `(id, asset_id)` existed; exactly the other rows remain; other tables untouched |
| MaintenanceService.CreateThenGet | backend/src/services/maintenance.service.ts:9-69 | a created log is found by its key and asset and is in its asset's list |
| MaintenanceService.UpdateThenGet | backend/src/services/maintenance.service.ts:55-137 | reading back an updated log yields what the update returned |
| MaintenanceService.DeleteAgreesWithGet | backend/src/services/maintenance.service.ts:55-155 | delete reports true iff the keyed read would find the log; afterwards it finds nothing |
| MaintenanceService.CreateMaintenanceKeepsValid | backend/src/services/maintenance.service.ts:9-25 | insert keeps maintenance ids unique, given an unused key |
| MaintenanceService.UpdateMaintenanceKeepsValid | backend/src/services/maintenance.service.ts:78-137 | update keeps all key constraints |
| MaintenanceService.DeleteMaintenanceKeepsValid | backend/src/services/maintenance.service.ts:145-155 | delete keeps all key constraints |
| MaintenanceService.JoinOne | backend/src/services/maintenance.service.ts:178-183 | the joined rows of one log are exactly its pairings with the caller's matching asset |
| MaintenanceService.Join | backend/src/services/maintenance.service.ts:178-183 | the join holds exactly the (log, asset) pairs that match the ON and WHERE conditions, each carrying the asset's name and description |
| MaintenanceService.GetUpcomingAndOverdueMaintenances | backend/src/services/maintenance.service.ts:164-194 | exactly the caller's logs with `is_completed = false`, a due date, and due on or before `today + daysAhead` (overdue included), each with its asset's name and description; sorted by due date ascending, then completion date descending |
| MaintenanceService.SummaryByDueDate | backend/src/services/maintenance.service.ts:184 | a summary row due strictly earlier than another comes before it |
| MaintenanceService.CompletedLeavesSummary | backend/src/services/maintenance.service.ts:181 | once an update sets `is_completed` to true, that log is in no user's summary |
| UserService.FindUserByIdentifier | backend/src/services/user.service.ts:11-21 | a result's username or e-mail is the identifier; null exactly when no user has it as either |
| UserService.CreateUser | backend/src/services/user.service.ts:28-44 | fails with "Username or email already exists." exactly when the username or the e-mail is taken, inserting nothing; otherwise appends the row with the hash and returns it without the hash |
| UserService.StoresOnlyTheHash | backend/src/services/user.service.ts:30-33 | the only new row holds `hash(password)` where the password would be |
| UserService.CreateUserKeepsValid | backend/src/services/user.service.ts:28-44 | registration keeps ids, usernames and e-mails unique |
| AssetController.CreateNewAsset | backend/src/controllers/asset.controller.ts:8-26 | 401 exactly when there is no caller; 400 exactly for a falsy name (the empty string included), writing nothing; otherwise 201 with the new asset, owned by the caller, carrying the name sent and the description sent (NULL when absent), and appended |
| AssetController.GetUserAssets | backend/src/controllers/asset.controller.ts:31-45 | 401 or 200 with exactly the caller's assets, each with its multiplicity in the table, sorted by name; nothing is written |
| AssetController.GetAsset | backend/src/controllers/asset.controller.ts:51-69 | 401 exactly when there is no caller; otherwise 404 exactly when the caller has no asset with that id (absent or foreign alike, one message) and 200 with the caller's asset otherwise; nothing is written |
| AssetController.UpdateExistingAsset | backend/src/controllers/asset.controller.ts:75-99 | 401 exactly when there is no caller; 400 exactly when both fields are undefined; 500 exactly for a null name on an existing asset; 404 exactly when the caller has no such asset; otherwise 200 with the patched row and the patched table; non-200 answers write nothing |
| AssetController.DeleteExistingAsset | backend/src/controllers/asset.controller.ts:105-123 | 401 exactly when there is no caller; 404 exactly when the caller has no such asset, writing nothing; otherwise 204, after which exactly the other assets remain, each with its multiplicity (no foreign key on `maintenances.asset_id` assumed) |
| AssetController.CreatedAssetIsReadable | backend/src/controllers/asset.controller.ts:8-69 | after a 201, `GET /assets/:id` with the new id answers 200 with the created asset and the list holds it |
| AssetController.ReadsSeeOnlyOwnAssets | backend/src/controllers/asset.controller.ts:31-69 | two stores holding the same assets for the caller give identical list and read responses, whatever other users own |
| AssetController.BadRequestIgnoresStore | backend/src/controllers/asset.controller.ts:15-17 | whether create or update answers 400 does not depend on the store |
| MaintenanceController.Normalized | backend/src/controllers/maintenance.controller.ts:38-45 | a falsy date or note is dropped and a truthy one passes through unchanged; asset id and description pass through; the flag defaults to false |
| MaintenanceController.CreateMaintenanceLog | backend/src/controllers/maintenance.controller.ts:17-51 | 401 exactly when there is no caller; 400 exactly for a falsy asset id or description, or a truthy flag without a date; 404 exactly when the caller does not own the asset; otherwise 201, and the 201 log belongs to an owned asset and stores the description sent, each date sent (NULL for a missing or empty one), the notes sent (NULL when falsy) and the flag or false; if completed it has a completion date |
| MaintenanceController.GetAssetMaintenanceLogs | backend/src/controllers/maintenance.controller.ts:57-77 | 401 exactly when there is no caller; 404 exactly when the asset is not the caller's; otherwise 200 with exactly its logs, each with its multiplicity, newest first |
| MaintenanceController.GetMaintenanceLog | backend/src/controllers/maintenance.controller.ts:83-106 | 401 exactly when there is no caller; 404 for an unowned asset, then 404 iff no log under `(id, asset_id)`; otherwise 200 wrapping that log |
| MaintenanceController.ToPatch | backend/src/controllers/maintenance.controller.ts:138-144 | an empty date string becomes null, every other field is passed through |
| MaintenanceController.UpdateMaintenanceLog | backend/src/controllers/maintenance.controller.ts:112-155 | 401 exactly when there is no caller; 400 exactly when no field is present, or when the body sets `is_completed` true without a truthy date; 404 for an unowned asset or a missing log; 500 exactly for a null description on an existing log; otherwise 200 with the patched row and table, and a 200 that sets completion returns a row with a completion date |
| MaintenanceController.DeleteMaintenanceLog | backend/src/controllers/maintenance.controller.ts:161-184 | 401 exactly when there is no caller; 404 for an unowned asset or a missing log, writing nothing; otherwise 204, after which exactly the other logs remain, each with its multiplicity |
| MaintenanceController.GetDashboardMaintenanceSummary | backend/src/controllers/maintenance.controller.ts:190-205 | 401, or 200 with exactly the caller's due logs under a 7-day horizon, each row carrying its own asset's name and description, sorted by due date |
| MaintenanceController.CreatedLogOnDashboard | backend/src/controllers/maintenance.controller.ts:17-51 | a log created through the handler appears in its owner's summary (lines 190-205), joined with its asset, exactly when it was created unfinished with a next due date on or before today + 7 |
| MaintenanceController.ForeignAssetIsOpaque | backend/src/controllers/maintenance.controller.ts:33-36 | on an asset the caller does not own, every maintenance handler past validation answers 404 and writes nothing |
| MaintenanceController.CreatedLogIsReadable | backend/src/controllers/maintenance.controller.ts:38-101 | after a 201, reading the new log under its asset answers 200 with it |
| MaintenanceController.BadRequestIgnoresStore | backend/src/controllers/maintenance.controller.ts:24-30 | whether create or update answers 400 does not depend on the store |
| MaintenanceController.ClearingDateKeepsCompletion | backend/src/controllers/maintenance.controller.ts:126-150 | clearing the date of a completed log is accepted and leaves it completed with no completion date |
| MaintenanceController.StoredDateIsNotEnough | backend/src/controllers/maintenance.controller.ts:128-130 | setting `is_completed` true without a date in the body is refused with 400 whatever is stored |
| AuthController.DuplicateMessageRecognised | backend/src/controllers/auth.controller.ts:38 | the handler's substring test recognises the service's duplicate message |
| AuthController.Register | backend/src/controllers/auth.controller.ts:10-43 | 400 exactly when a field is falsy; otherwise 409 exactly when some user has the username as username or e-mail, or the e-mail as e-mail, writing nothing; otherwise 201 with the public user and `sign(id)`, the hash stored |
| AuthController.Login | backend/src/controllers/auth.controller.ts:49-81 | 400 on a falsy field; 200 exactly when the identifier finds a user and `compare` accepts the password, with that user and `sign(id)`; every 401 is the same response; nothing is written |
| AuthController.Logout | backend/src/controllers/auth.controller.ts:89-93 | always 200; the store is unchanged |
| AuthController.LoginFailuresIndistinguishable | backend/src/controllers/auth.controller.ts:59-67 | an unknown identifier and a wrong password give identical responses |
| AuthController.RegisterAdmitsAmbiguousEmail | backend/src/controllers/auth.controller.ts:19-24 | an e-mail equal to another user's username is accepted, after which one identifier names two accounts |
| AuthController.RegisterChecked | backend/src/controllers/auth.controller.ts:19-22 | with both fields looked up, 409 exactly when either value is already a username or e-mail |
| AuthController.RegisterCheckedKeepsUnambiguous | backend/src/controllers/auth.controller.ts:19-24 | with both fields looked up, no identifier ever names two users |
| AuthController.RegisterThenLogin | backend/src/controllers/auth.controller.ts:24-76 | after that registration, logging in with the new e-mail or username and the same password signs in as the new user |
| AuthMiddleware.IndexOf | backend/src/middlewares/auth.middleware.ts:23 | the first separator position, or the length when there is none |
| AuthMiddleware.Split | backend/src/middlewares/auth.middleware.ts:23 | at least one piece, none contains the separator, and joining them back gives the header |
| AuthMiddleware.SplitJoin | backend/src/middlewares/auth.middleware.ts:23 | splitting separator-free pieces joined by the separator gives back exactly those pieces |
| AuthMiddleware.ExtractToken | backend/src/middlewares/auth.middleware.ts:21-23 | no header gives no token; `''` gives `''`; a non-empty header gives a token iff it has a space, and the token is the text after the first space up to the next space or the end |
| AuthMiddleware.TokenIsSecondPiece | backend/src/middlewares/auth.middleware.ts:23 | for `a b rest` with `a`, `b` space-free and `rest` empty or starting with a space, the token is `b` |
| AuthMiddleware.AuthenticateToken | backend/src/middlewares/auth.middleware.ts:19-40 | 401 iff there is no token; 403 iff the token does not verify; otherwise `next` with the verified id |
| AuthMiddleware.BearerRoundTrip | backend/src/middlewares/auth.middleware.ts:23 | `Bearer <t>` yields `t` for any space-free `t` |
| AuthMiddleware.NoTokenExactly | backend/src/middlewares/auth.middleware.ts:23-28 | the 401 happens exactly for a missing header or a non-empty header without a space |
| AuthMiddleware.DoubleSpaceGoesToVerification | backend/src/middlewares/auth.middleware.ts:23-35 | `Bearer  t` yields the empty token, which goes to verification and is refused with 403 |
| AuthMiddleware.PassedRequestsAreSignedIn | backend/src/middlewares/auth.middleware.ts:37-39 | a request let through reaches the handler signed in iff its verified id is non-empty |
| AuthPage.Test | frontend/src/pages/AuthPage.tsx:47-61 | the regular-expression test holds iff some character is in the class |
| AuthPage.ValidatePassword | frontend/src/pages/AuthPage.tsx:42-66 | valid iff length ≥ 8 and an upper, a lower, a digit and a special character occur; otherwise the helper text is that of the first failing check in page order; cleared on success |
| AuthPage.EveryRulePasses | frontend/src/pages/AuthPage.tsx:43-62 | the five tests passing means every rule holds |
| AuthPage.PasswordFeedback | frontend/src/pages/AuthPage.tsx:68-78 | while typing, the register tab flags the password iff some rule fails; the login tab shows nothing |
| AuthPage.HandleSubmit | frontend/src/pages/AuthPage.tsx:81-109 | blocked iff on the register tab with a failing rule, showing that helper text; a registration sent always has a password meeting every rule; the login tab sends the e-mail field as the identifier |
| AuthPage.LoginNeverValidates | frontend/src/pages/AuthPage.tsx:88-101 | the login tab sends any password |
| AuthPage.AcceptsStrongPassword | frontend/src/pages/AuthPage.tsx:42-66 | `Abcdef1!` is accepted |

## Findings

| source | as written | input that shows it | evidently intended | confidence | as-written member | corrected member |
|---|---|---|---|---|---|---|
| backend/src/controllers/auth.controller.ts:19-22 | the duplicate pre-check looks up only the username (as username or e-mail); the insert's assumed unique constraints compare username with username and e-mail with e-mail only | a user `bob` exists; register `carol` with e-mail `bob`: 201, and the identifier `bob` now names both accounts, so a login with it resolves to one of them | both submitted values looked up as identifiers, answering 409 "Username or email already taken." | medium, not executed | AuthController.RegisterAdmitsAmbiguousEmail | AuthController.RegisterChecked |

## Where the code departs from what it appears to intend

The model follows the code in each case.

- **Asset delete ignores the asset's maintenances.** `deleteAsset`
  (backend/src/services/asset.service.ts:112) issues a single
  `DELETE FROM assets` and touches no other table. What happens to the
  asset's maintenances then depends on the foreign key on
  `maintenances.asset_id`, which is not part of this model. The model
  assumes there is none, so `AssetService.DeleteAsset` always succeeds and
  leaves `maintenances` as it was. With `ON DELETE CASCADE` the logs would
  go too. With a NO ACTION or RESTRICT key the statement would fail
  (SQLSTATE 23503) for an asset that has logs, the service would re-throw it
  (lines 118-119) and the handler would answer 500 instead of 204. Both
  cases are under "Left out".
- **The update completion check looks only at the body.** The update
  handler (backend/src/controllers/maintenance.controller.ts:128) refuses
  `is_completed === true` unless the same body carries a truthy
  `completion_date`, so a completion date stored earlier does not count.
  `MaintenanceController.StoredDateIsNotEnough` shows this.
- **The completion rule can be broken by an update.** The create handler
  refuses a completed log without a date (lines 28-30 of the same file), but
  an update that clears the date while leaving the flag absent passes the
  check. `MaintenanceController.ClearingDateKeepsCompletion` shows this. The
  comment at lines 126-127 says the check applies only when the body sets
  the flag, so the code does what it says and this is not listed as a
  finding.
- **Required fields can be emptied on update.** The create handlers refuse
  a falsy name ("Asset name is required.", asset.controller.ts:15-17) and a
  falsy service description ("Asset ID and service description are
  required.", maintenance.controller.ts:24-26). The update handlers test
  only for `undefined` and accept `''` for both. In the model only `null`
  fails, under the assumed NOT NULL columns.
- **Asset updates do not refresh `updated_at`.** Maintenance updates do.

## Left out

- I/O and the framework:
  - the database connection, the Express wiring and the HTTP transport;
  - logging (`console.error`);
  - `backend/src/config/db.ts` and `backend/src/server.ts` are not part of
    this model.
- Foreign libraries: bcrypt, jsonwebtoken and token expiry are the
  parameters `hash`, `compare`, `sign` and `verify`. The model does not
  assume `compare` agrees with `hash`, except where a lemma requires it
  (`RegisterThenLogin`).
- Routes: the assumption that every asset and maintenance route passes
  through the middleware (backend/src/routes/asset.routes.ts:9,
  backend/src/routes/maintenance.routes.ts:7) is not modelled as a
  composition. A handler takes the caller as an `Option<Id>`.
- The table definitions. The model assumes:
  - `assets.name` and `maintenances.service_description` are NOT NULL;
  - `users.id`, `assets.id` and `maintenances.id` are primary keys, and
    `users.username` and `users.email` are each UNIQUE in their own column
    (`Schema.Valid`);
  - `maintenances.is_completed` is nullable;
  - `maintenances.asset_id` carries no foreign-key constraint, so deleting
    an asset neither removes its logs nor is refused because of them;
  - `assets.user_id` carries no foreign-key constraint (or, equivalently
    for the model, every id a verified token carries names an existing
    user), so the asset INSERT cannot fail;
  - text sorts in the C collation (code-unit order). Under a locale-aware
    collation `GetAssetsByUserId` would still return exactly the caller's
    assets, but in a different order.
- Database failures other than the two assumed constraint violations:
  connection loss and malformed values, each answered 500 by the handlers.
- A foreign key on `maintenances.asset_id`:
  - under NO ACTION or RESTRICT, deleting an asset that has logs fails with
    SQLSTATE 23503 and `DELETE /assets/:id` answers 500; the model answers
    204;
  - under ON DELETE CASCADE, the logs are removed with the asset; the model
    keeps them.
  `AssetService.DeleteAsset` and `AssetController.DeleteExistingAsset`
  promise the behaviour without such a key.
- CreateNewAsset: a foreign key `assets.user_id → users.id` is not modelled.
  With one, a token whose id names no user (a deleted account, say) makes
  the INSERT at backend/src/services/asset.service.ts:12 fail with SQLSTATE
  23503; the service re-throws it (lines 17-20) and `createNewAsset`
  answers 500 "Failed to create asset." (asset.controller.ts:22-25), where
  the model answers 201. `AssetService.CreateAsset` and
  `AssetController.CreateNewAsset` promise the behaviour without such a key.
  A maintenance INSERT is not affected: its asset was found under the
  caller's id just before.
- Values the handlers accept but the model does not represent:
  - date strings PostgreSQL would reject;
  - non-string names;
  - non-boolean `is_completed` values.
- The `newUser` falsy branch of `register` (500 "Failed to register user.").
  `createUser` returns the inserted row whenever it does not throw.
- The "no fields" branch of `updateMaintenance`
  (backend/src/services/maintenance.service.ts:116-118). It cannot be taken
  because `updated_at` is always in the SET list; `UpdateMaintenance` always
  runs the statement.
- The order of rows that compare equal under `ORDER BY`, which SQL leaves
  unspecified. `GetAssetsByUserId`, `GetMaintenanceLogsByAssetId` and
  `GetUpcomingAndOverdueMaintenances` promise sortedness and exactly which
  rows appear (the first two also with their multiplicities), not a
  particular tie order. `FindUserByIdentifier` returns
  the first matching row in table order.
- AuthPage.ValidatePassword: `pwd.length` counts UTF-16 code units, while
  the model counts characters. A password with characters outside the Basic
  Multilingual Plane can pass the length check in the browser with fewer
  than 8 characters.
- The rest of the front end: components, badges and API wrappers.
- Token expiry and the `today` used by the summary come from wall-clock time
  and are parameters.

=== FILE: asset_controller.dfy ===
/** The asset handlers: authentication and body checks in front of the
    asset service, and the mapping of its answers to HTTP statuses. The
    caller is `req.user?.id` as the authentication middleware left it. */
module AssetController {
  import opened Wrappers
  import opened Relational
  import opened Json
  import opened Schema
  import opened Http
  import opened AssetService

  /** `{ name, description }` of a request body. */
  datatype AssetBody = AssetBody(name: Field<string>, description: Field<string>)

  const NameRequired := "Asset name is required."
  const CreatedMessage := "Asset created successfully."
  const CreateFailed := "Failed to create asset."
  const NotFoundToView := "Asset not found or you do not have permission to view it."
  const NothingToUpdate := "At least one field (name or description) is required for update."
  const NotFoundToUpdate := "Asset not found or you do not have permission to update it."
  const UpdateFailed := "Failed to update asset."
  const NotFoundToDelete := "Asset not found or you do not have permission to delete it."

  /** `POST /assets`: 401 without a caller, 400 without a truthy name,
      otherwise 201 with the new asset, owned by the caller. The 500 for a
      failing INSERT is not reachable: `assets.user_id` is assumed to carry
      no foreign key. */
  function CreateNewAsset(s: Store, newId: Id, now: Timestamp, user: Option<Id>, body: AssetBody): (o: Outcome)
    ensures !SignedIn(user) ==> o == Unauthenticated(s)
    ensures o.response.status == 401 <==> !SignedIn(user)
    ensures o.response.status == 400 <==> SignedIn(user) && !TruthyText(body.name)
    ensures o.response.status == 400 ==> o == Reply(s, 400, NameRequired)
    ensures o.response.status == 201 <==> SignedIn(user) && TruthyText(body.name)
    ensures o.response.status == 201 ==>
              && o.response.body.AssetCreated?
              && o.response.body.message == CreatedMessage
              && var a := o.response.body.asset;
                 && a.id == newId && a.userId == user.value && a.name == body.name.value
                 && (a.description.Some? <==> body.description.Given?)
                 && (body.description.Given? ==> a.description.value == body.description.value)
                 && o.store.assets == s.assets + [a]
                 && o.store.users == s.users && o.store.maintenances == s.maintenances
  {
    if !SignedIn(user) then Unauthenticated(s)
    else if !TruthyText(body.name) then Reply(s, 400, NameRequired)
    else
      var w := CreateAsset(s, newId, now, user.value, body.name.value, body.description);
      Outcome(Response(201, AssetCreated(CreatedMessage, w.result)), w.store)
  }

  /** `GET /assets`: the caller's assets, sorted by name. */
  function GetUserAssets(s: Store, user: Option<Id>): (o: Outcome)
    ensures o.store == s
    ensures !SignedIn(user) ==> o == Unauthenticated(s)
    ensures o.response.status == 401 <==> !SignedIn(user)
    ensures SignedIn(user) ==>
              && o.response.status == 200
              && o.response.body.AssetList?
              && (forall a :: a in o.response.body.assets <==> a in s.assets && a.userId == user.value)
              && (forall a :: multiset(o.response.body.assets)[a] ==
                    if a.userId == user.value then multiset(s.assets)[a] else 0)
              && SortedBy(o.response.body.assets, NameAsc)
  {
    if !SignedIn(user) then Unauthenticated(s)
    else Outcome(Response(200, AssetList(GetAssetsByUserId(s, user.value))), s)
  }

  /** `GET /assets/:id`: the asset under `(id, caller)`, or 404 whether it
      does not exist or belongs to someone else. */
  function GetAsset(s: Store, user: Option<Id>, assetId: Id): (o: Outcome)
    ensures o.store == s
    ensures !SignedIn(user) ==> o == Unauthenticated(s)
    ensures o.response.status == 401 <==> !SignedIn(user)
    ensures SignedIn(user) ==>
              (o.response.status == 404 <==> forall a :: a in s.assets ==> !(a.id == assetId && a.userId == user.value))
    ensures o.response.status == 404 ==> o == Reply(s, 404, NotFoundToView)
    ensures o.response.status == 200 ==>
              && o.response.body.AssetJson?
              && o.response.body.asset in s.assets
              && o.response.body.asset.id == assetId && o.response.body.asset.userId == user.value
    ensures o.response.status in {200, 401, 404}
  {
    if !SignedIn(user) then Unauthenticated(s)
    else
      match GetAssetByIdAndUserId(s, assetId, user.value)
      case None => Reply(s, 404, NotFoundToView)
      case Some(a) => Outcome(Response(200, AssetJson(a)), s)
  }

  /** `PUT /assets/:id`: 400 when neither field is present, 500 when the
      name is set to null on an existing asset, 404 when the caller has no
      such asset, otherwise 200 with the updated row. */
  function UpdateExistingAsset(s: Store, user: Option<Id>, assetId: Id, body: AssetBody): (o: Outcome)
    ensures !SignedIn(user) ==> o == Unauthenticated(s)
    ensures o.response.status == 401 <==> !SignedIn(user)
    ensures o.response.status == 400 <==> SignedIn(user) && body.name.Absent? && body.description.Absent?
    ensures o.response.status == 400 ==> o == Reply(s, 400, NothingToUpdate)
    ensures o.response.status == 500 <==>
              && SignedIn(user) && !(body.name.Absent? && body.description.Absent?)
              && body.name.Null? && GetAssetByIdAndUserId(s, assetId, user.value).Some?
    ensures o.response.status == 500 ==> o == Reply(s, 500, UpdateFailed)
    ensures o.response.status == 404 <==>
              && SignedIn(user) && !(body.name.Absent? && body.description.Absent?)
              && GetAssetByIdAndUserId(s, assetId, user.value).None?
    ensures o.response.status == 404 ==> o == Reply(s, 404, NotFoundToUpdate)
    ensures o.response.status == 200 ==>
              && o.response.body.AssetJson?
              && o.response.body.asset == Patched(GetAssetByIdAndUserId(s, assetId, user.value).value, body.name, body.description)
              && o.store == s.(assets := PatchRows(s.assets, assetId, user.value, body.name, body.description))
    ensures o.response.status in {200, 400, 401, 404, 500}
  {
    if !SignedIn(user) then Unauthenticated(s)
    else if body.name.Absent? && body.description.Absent? then Reply(s, 400, NothingToUpdate)
    else
      match UpdateAsset(s, assetId, user.value, body.name, body.description)
      case Failure(_) => Reply(s, 500, UpdateFailed)
      case Success(Write(t, None)) => Reply(s, 404, NotFoundToUpdate)
      case Success(Write(t, Some(a))) => Outcome(Response(200, AssetJson(a)), t)
  }

  /** `DELETE /assets/:id`: 204 when the caller's asset went, 404 otherwise.
      The 500 for a failing statement is not reachable under the assumption
      that `maintenances.asset_id` has no foreign key. */
  function DeleteExistingAsset(s: Store, user: Option<Id>, assetId: Id): (o: Outcome)
    ensures !SignedIn(user) ==> o == Unauthenticated(s)
    ensures o.response.status == 401 <==> !SignedIn(user)
    ensures SignedIn(user) ==>
              (o.response.status == 404 <==> GetAssetByIdAndUserId(s, assetId, user.value).None?)
    ensures o.response.status == 404 ==> o == Reply(s, 404, NotFoundToDelete)
    ensures o.response.status == 204 ==>
              && o.response.body == NoContent
              && GetAssetByIdAndUserId(o.store, assetId, user.value).None?
              && (forall a :: a in o.store.assets <==> a in s.assets && !(a.id == assetId && a.userId == user.value))
              && (forall a :: multiset(o.store.assets)[a] ==
                    if a.id == assetId && a.userId == user.value then 0 else multiset(s.assets)[a])
              && o.store.users == s.users && o.store.maintenances == s.maintenances
    ensures o.response.status in {204, 401, 404}
  {
    if !SignedIn(user) then Unauthenticated(s)
    else
      var w := DeleteAsset(s, assetId, user.value);
      if !w.result then Reply(s, 404, NotFoundToDelete)
      else Outcome(Response(204, NoContent), w.store)
  }

  /** A 201 followed by a read by the new key finds the created asset, and
      the caller's list holds it. */
  lemma CreatedAssetIsReadable(s: Store, newId: Id, now: Timestamp, user: Option<Id>, body: AssetBody)
    requires forall a :: a in s.assets ==> a.id != newId
    requires CreateNewAsset(s, newId, now, user, body).response.status == 201
    ensures var o := CreateNewAsset(s, newId, now, user, body);
            && GetAsset(o.store, user, newId) == Outcome(Response(200, AssetJson(o.response.body.asset)), o.store)
            && o.response.body.asset in GetUserAssets(o.store, user).response.body.assets
  {
    CreateThenGet(s, newId, now, user.value, body.name.value, body.description);
  }

  /** Non-interference: the read handlers answer from the caller's own rows
      only. Two stores that hold the same assets for the caller, in the same
      order, give the same responses, whatever other users own. */
  lemma {:induction false} ReadsSeeOnlyOwnAssets(s1: Store, s2: Store, u: Id, assetId: Id)
    requires Where(s1.assets, OwnedBy(u)) == Where(s2.assets, OwnedBy(u))
    ensures GetUserAssets(s1, Some(u)).response == GetUserAssets(s2, Some(u)).response
    ensures GetAsset(s1, Some(u), assetId).response == GetAsset(s2, Some(u), assetId).response
  {
    FirstWhereNarrow(s1.assets, OwnedBy(u), Keyed(assetId, u));
    FirstWhereNarrow(s2.assets, OwnedBy(u), Keyed(assetId, u));
  }

  /** Validation comes before any store access: whether a request is
      answered 400 depends on the caller and the body alone. */
  lemma BadRequestIgnoresStore(s1: Store, s2: Store, newId: Id, now: Timestamp, user: Option<Id>, assetId: Id,
                               body: AssetBody)
    ensures CreateNewAsset(s1, newId, now, user, body).response.status == 400
        <==> CreateNewAsset(s2, newId, now, user, body).response.status == 400
    ensures UpdateExistingAsset(s1, user, assetId, body).response.status == 400
        <==> UpdateExistingAsset(s2, user, assetId, body).response.status == 400
  {
  }
}

=== FILE: asset_service.dfy ===
/** The asset service: one SQL statement per operation on the `assets` table.
    Every read, update and delete filters on the compound key
    `(id, user_id)`, so the ownership check and the access are one step. */
module AssetService {
  import opened Wrappers
  import opened Relational
  import opened Json
  import opened Schema

  /** `WHERE id = $1 AND user_id = $2`. */
  function Keyed(assetId: Id, userId: Id): Asset -> bool {
    (a: Asset) => a.id == assetId && a.userId == userId
  }

  /** `WHERE user_id = $1`. */
  function OwnedBy(userId: Id): Asset -> bool {
    (a: Asset) => a.userId == userId
  }

  /** `ORDER BY name ASC`. */
  predicate NameAsc(a: Asset, b: Asset) {
    TextLe(a.name, b.name)
  }

  lemma NameAscIsTotalPreorder()
    ensures TotalPreorder(NameAsc)
  {
    forall a: Asset, b: Asset
      ensures NameAsc(a, b) || NameAsc(b, a)
    {
      TextLeTotal(a.name, b.name);
    }
    forall a: Asset, b: Asset, c: Asset | NameAsc(a, b) && NameAsc(b, c)
      ensures NameAsc(a, c)
    {
      TextLeTransitive(a.name, b.name, c.name);
    }
  }

  /** `INSERT INTO assets (user_id, name, description)`: the key comes from
      the table's sequence (`newId`) and both timestamps from the column
      defaults (`now`). An absent description is stored as NULL. */
  function CreateAsset(s: Store, newId: Id, now: Timestamp, userId: Id, name: string, description: Field<string>)
    : (w: Write<Asset>)
    ensures w.result.id == newId && w.result.userId == userId && w.result.name == name
    ensures w.result.description.Some? <==> description.Given?
    ensures description.Given? ==> w.result.description.value == description.value
    ensures w.result.createdAt == now && w.result.updatedAt == now
    ensures w.store.assets == s.assets + [w.result]
    ensures w.store.users == s.users && w.store.maintenances == s.maintenances
  {
    var a := Asset(newId, userId, name, Nullable(description), now, now);
    Write(s.(assets := s.assets + [a]), a)
  }

  /** `SELECT ... WHERE user_id = $1 ORDER BY name ASC`. */
  function GetAssetsByUserId(s: Store, userId: Id): (r: seq<Asset>)
    ensures forall a :: a in r <==> a in s.assets && a.userId == userId
    ensures forall a :: multiset(r)[a] == if a.userId == userId then multiset(s.assets)[a] else 0
    ensures SortedBy(r, NameAsc)
  {
    var mine := Where(s.assets, OwnedBy(userId));
    NameAscIsTotalPreorder();
    OrderBySorted(mine, NameAsc);
    OrderBy(mine, NameAsc)
  }

  /** `SELECT ... WHERE id = $1 AND user_id = $2`, first row or null: an
      asset that does not exist and one that belongs to someone else give
      the same answer. */
  function GetAssetByIdAndUserId(s: Store, assetId: Id, userId: Id): (r: Option<Asset>)
    ensures r.Some? ==> r.value in s.assets && r.value.id == assetId && r.value.userId == userId
    ensures r.None? <==> forall a :: a in s.assets ==> !(a.id == assetId && a.userId == userId)
  {
    FirstWhere(s.assets, Keyed(assetId, userId))
  }

  /** The SET list of an asset update applied to one row: only the supplied
      columns change, and `updated_at` is not among them. */
  function Patched(a: Asset, name: Field<string>, description: Field<string>): Asset {
    a.(name := if name.Given? then name.value else a.name,
       description := if description.Absent? then a.description else Nullable(description))
  }

  function Patch(name: Field<string>, description: Field<string>): Asset -> Asset {
    (a: Asset) => Patched(a, name, description)
  }

  /** The `assets` table after the UPDATE: the rows under the key are
      patched in place, every other row is kept, and no row changes its key,
      owner or timestamps. */
  function PatchRows(rows: seq<Asset>, assetId: Id, userId: Id, name: Field<string>, description: Field<string>)
    : (t: seq<Asset>)
    ensures |t| == |rows|
    ensures forall i :: 0 <= i < |rows| && !(rows[i].id == assetId && rows[i].userId == userId) ==> t[i] == rows[i]
    ensures forall i :: 0 <= i < |rows| && rows[i].id == assetId && rows[i].userId == userId ==>
              && t[i].name == (if name.Given? then name.value else rows[i].name)
              && t[i].description == (if description.Absent? then rows[i].description else Nullable(description))
    ensures forall i :: 0 <= i < |rows| ==>
              && t[i].id == rows[i].id && t[i].userId == rows[i].userId
              && t[i].createdAt == rows[i].createdAt && t[i].updatedAt == rows[i].updatedAt
  {
    UpdateWhere(rows, Keyed(assetId, userId), Patch(name, description))
  }

  /** `UPDATE assets SET ... WHERE id = $n AND user_id = $m RETURNING ...`.
      With nothing to set the service returns null without a statement.
      The schema is taken to declare `name` NOT NULL (an assumption of this
      model): binding NULL to it then fails, but only when a row matches,
      since the constraint is checked on new row versions. */
  function UpdateAsset(s: Store, assetId: Id, userId: Id, name: Field<string>, description: Field<string>)
    : (r: Result<Write<Option<Asset>>, DbError>)
    ensures name.Absent? && description.Absent? ==> r == Success(Write(s, None))
    ensures r.Failure? <==>
              && !(name.Absent? && description.Absent?)
              && name.Null?
              && GetAssetByIdAndUserId(s, assetId, userId).Some?
    ensures r.Failure? ==> r.error == NotNullViolation
    ensures r.Success? && r.value.result.None? ==>
              r.value.store == s && ((name.Absent? && description.Absent?) || GetAssetByIdAndUserId(s, assetId, userId).None?)
    ensures r.Success? && r.value.result.Some? ==>
              && GetAssetByIdAndUserId(s, assetId, userId).Some?
              && r.value.result.value == Patched(GetAssetByIdAndUserId(s, assetId, userId).value, name, description)
              && r.value.store == s.(assets := PatchRows(s.assets, assetId, userId, name, description))
  {
    if name.Absent? && description.Absent? then Success(Write(s, None))
    else
      var found := GetAssetByIdAndUserId(s, assetId, userId);
      if found.None? then Success(Write(s, None))
      else if name.Null? then Failure(NotNullViolation)
      else Success(Write(s.(assets := PatchRows(s.assets, assetId, userId, name, description)),
                         Some(Patched(found.value, name, description))))
  }

  /** `DELETE FROM assets WHERE id = $1 AND user_id = $2`, reporting whether
      a row went. Only `assets` is touched: the maintenances of a deleted
      asset are not removed by this statement. The model assumes no foreign
      key on `maintenances.asset_id`, so the statement never fails here;
      under a RESTRICT key it would fail for an asset that has logs. */
  function DeleteAsset(s: Store, assetId: Id, userId: Id): (w: Write<bool>)
    ensures w.result <==> exists a :: a in s.assets && a.id == assetId && a.userId == userId
    ensures forall a :: a in w.store.assets <==> a in s.assets && !(a.id == assetId && a.userId == userId)
    ensures forall a: Asset :: !(a.id == assetId && a.userId == userId) ==> multiset(w.store.assets)[a] == multiset(s.assets)[a]
    ensures w.store.users == s.users && w.store.maintenances == s.maintenances
  {
    var p := Keyed(assetId, userId);
    var kept := Where(s.assets, (a: Asset) => !p(a));
    var gone := Where(s.assets, p);
    Write(s.(assets := kept), |gone| > 0)
  }

  /** Creating and then reading back by the new key and the owner yields the
      created row. */
  lemma CreateThenGet(s: Store, newId: Id, now: Timestamp, userId: Id, name: string, description: Field<string>)
    requires forall a :: a in s.assets ==> a.id != newId
    ensures var w := CreateAsset(s, newId, now, userId, name, description);
            && GetAssetByIdAndUserId(w.store, newId, userId) == Some(w.result)
            && w.result in GetAssetsByUserId(w.store, userId)
  {
  }

  /** Reading back an updated asset yields what the update returned. */
  lemma {:induction false} UpdateThenGet(s: Store, assetId: Id, userId: Id, name: Field<string>, description: Field<string>)
    ensures var r := UpdateAsset(s, assetId, userId, name, description);
            r.Success? && r.value.result.Some? ==> GetAssetByIdAndUserId(r.value.store, assetId, userId) == r.value.result
  {
    var r := UpdateAsset(s, assetId, userId, name, description);
    if r.Success? && r.value.result.Some? {
      var p := Keyed(assetId, userId);
      var f := Patch(name, description);
      var rows := PatchRows(s.assets, assetId, userId, name, description);
      assert rows == UpdateWhere(s.assets, p, f);
      WhereAfterUpdate(s.assets, p, f);
      var hits := Where(s.assets, p);
      assert FirstWhere(s.assets, p) == Some(hits[0]);
      assert Where(rows, p) == Map(hits, f);
      assert FirstWhere(rows, p) == Some(Map(hits, f)[0]);
    }
  }

  /** A delete reports `true` exactly when the read by the same key would
      have found the asset, and afterwards the read finds nothing. */
  lemma DeleteAgreesWithGet(s: Store, assetId: Id, userId: Id)
    ensures DeleteAsset(s, assetId, userId).result <==> GetAssetByIdAndUserId(s, assetId, userId).Some?
    ensures GetAssetByIdAndUserId(DeleteAsset(s, assetId, userId).store, assetId, userId) == None
  {
  }

  /** Cross-user isolation: whatever user `u` does to the key `(assetId, u)`,
      every asset of every other user stays exactly as it was. */
  lemma OtherUsersUntouched(s: Store, assetId: Id, u: Id, name: Field<string>, description: Field<string>, a: Asset)
    requires a in s.assets && a.userId != u
    ensures a in DeleteAsset(s, assetId, u).store.assets
    ensures UpdateAsset(s, assetId, u, name, description).Success? ==>
              a in UpdateAsset(s, assetId, u, name, description).value.store.assets
  {
    var r := UpdateAsset(s, assetId, u, name, description);
    if r.Success? {
      var i :| 0 <= i < |s.assets| && s.assets[i] == a;
      assert r.value.store.assets[i] == a;
    }
  }

  /** Every asset statement keeps the key constraints, provided the
      sequence hands out an unused key. */
  lemma CreateAssetKeepsValid(s: Store, newId: Id, now: Timestamp, userId: Id, name: string, description: Field<string>)
    requires Valid(s)
    requires forall a :: a in s.assets ==> a.id != newId
    ensures Valid(CreateAsset(s, newId, now, userId, name, description).store)
  {
    var c := CreateAsset(s, newId, now, userId, name, description).store.assets;
    forall i | 0 <= i < |s.assets|
      ensures c[i] == s.assets[i] && AssetKey(c[i]) != AssetKey(c[|s.assets|])
    {
      assert s.assets[i] in s.assets;
    }
  }

  lemma UpdateAssetKeepsValid(s: Store, assetId: Id, userId: Id, name: Field<string>, description: Field<string>)
    requires Valid(s)
    requires UpdateAsset(s, assetId, userId, name, description).Success?
    ensures Valid(UpdateAsset(s, assetId, userId, name, description).value.store)
  {
  }

  lemma DeleteAssetKeepsValid(s: Store, assetId: Id, userId: Id)
    requires Valid(s)
    ensures Valid(DeleteAsset(s, assetId, userId).store)
  {
    var p := Keyed(assetId, userId);
    WhereKeepsUnique(s.assets, (a: Asset) => !p(a), AssetKey);
  }
}

=== FILE: auth_controller.dfy ===
/** The authentication handlers. Password hashing, hash comparison and token
    signing are parameters: `hash` stands for bcrypt's hash, `compare` for
    bcrypt's compare and `sign` for issuing a token for a user id. */
module AuthController {
  import opened Wrappers
  import opened Json
  import opened Schema
  import opened Http
  import opened UserService

  datatype RegisterBody = RegisterBody(username: Field<string>, email: Field<string>, password: Field<string>)
  datatype LoginBody = LoginBody(identifier: Field<string>, password: Field<string>)

  const RegisterFieldsRequired := "Username, email, and password are required."
  const AlreadyTaken := "Username or email already taken."
  const Registered := "User registered successfully."
  const RegisterFailed := "Internal server error during registration."
  const LoginFieldsRequired := "Identifier (username/email) and password are required."
  const InvalidCredentials := "Invalid credentials."
  const LoggedIn := "Logged in successfully."
  const LoggedOut := "Logged out successfully."

  /** `text.includes(part)`: `part` starts at some position of `text`. */
  predicate Includes(text: string, part: string) {
    part <= text || (|text| > 0 && Includes(text[1..], part))
  }

  /** The handler recognises the service's duplicate message by this part. */
  const DuplicateMarker := "Username or email already exists"

  lemma DuplicateMessageRecognised()
    ensures Includes(DuplicateUserMessage, DuplicateMarker)
  {
    assert DuplicateMarker <= DuplicateUserMessage;
  }

  /** Some user already answers to `username`, or holds `email`: the union of
      the pre-check and the unique constraints. */
  predicate Taken(s: Store, username: string, email: string) {
    exists u :: u in s.users && (u.username == username || u.email == username || u.email == email)
  }

  /** What a successful registration (201) or login (200) sends: the public
      user and a token signed for its id. */
  function Welcome(status: int, message: string, id: Id, username: string, email: string, sign: Id -> string)
    : Response
  {
    Response(status, Authenticated(message, UserView(id, username, email), sign(id)))
  }

  /** `POST /auth/register`: 400 unless all three fields are truthy; 409 when
      the username already names a user (as username or e-mail) or the insert
      hits a unique constraint; otherwise 201 with the public user and a
      token for it. */
  function Register(s: Store, newId: Id, now: Timestamp, body: RegisterBody, hash: string -> string, sign: Id -> string)
    : (o: Outcome)
    ensures o.response.status == 400 <==>
              !(TruthyText(body.username) && TruthyText(body.email) && TruthyText(body.password))
    ensures o.response.status == 400 ==> o == Reply(s, 400, RegisterFieldsRequired)
    ensures o.response.status != 400 ==>
              (o.response.status == 409 <==> Taken(s, body.username.value, body.email.value))
    ensures o.response.status == 409 ==> o.store == s && o.response.body.Message?
    ensures o.response.status == 201 ==>
              && o.response == Welcome(201, Registered, newId, body.username.value, body.email.value, sign)
              && o.store == s.(users := s.users + [User(newId, body.username.value, body.email.value,
                                                        hash(body.password.value), now, now)])
    ensures o.response.status in {201, 400, 409}
  {
    if !(TruthyText(body.username) && TruthyText(body.email) && TruthyText(body.password)) then
      Reply(s, 400, RegisterFieldsRequired)
    else if FindUserByIdentifier(s, body.username.value).Some? then
      Reply(s, 409, AlreadyTaken)
    else
      match CreateUser(s, newId, now, body.username.value, body.email.value, body.password.value, hash)
      case Failure(message) =>
        DuplicateMessageRecognised();
        if Includes(message, DuplicateMarker) then Reply(s, 409, message) else Reply(s, 500, RegisterFailed)
      case Success(Write(t, created)) =>
        Outcome(Welcome(201, Registered, created.id, created.username, created.email, sign), t)
  }

  /** `POST /auth/login`: 400 on a missing field; 401 with one message
      whether the identifier is unknown or the password is wrong; otherwise
      200 with the first user the identifier names and a token for it.
      Nothing is written. */
  function Login(s: Store, body: LoginBody, compare: (string, string) -> bool, sign: Id -> string): (o: Outcome)
    ensures o.store == s
    ensures o.response.status == 400 <==> !(TruthyText(body.identifier) && TruthyText(body.password))
    ensures o.response.status == 400 ==> o.response == Response(400, Message(LoginFieldsRequired))
    ensures o.response.status == 401 ==> o.response == Response(401, Message(InvalidCredentials))
    ensures TruthyText(body.identifier) && TruthyText(body.password) ==>
              (o.response.status == 200 <==>
                 && FindUserByIdentifier(s, body.identifier.value).Some?
                 && compare(body.password.value, FindUserByIdentifier(s, body.identifier.value).value.passwordHash))
    ensures o.response.status == 200 ==>
              var u := FindUserByIdentifier(s, body.identifier.value).value;
              o.response == Welcome(200, LoggedIn, u.id, u.username, u.email, sign)
    ensures o.response.status in {200, 400, 401}
  {
    if !(TruthyText(body.identifier) && TruthyText(body.password)) then Reply(s, 400, LoginFieldsRequired)
    else
      match FindUserByIdentifier(s, body.identifier.value)
      case None => Reply(s, 401, InvalidCredentials)
      case Some(u) =>
        if !compare(body.password.value, u.passwordHash) then Reply(s, 401, InvalidCredentials)
        else Outcome(Welcome(200, LoggedIn, u.id, u.username, u.email, sign), s)
  }

  /** `POST /auth/logout`: tokens are stateless, so nothing is revoked. */
  function Logout(s: Store): (o: Outcome)
    ensures o.store == s && o.response.status == 200
  {
    Reply(s, 200, LoggedOut)
  }

  /** An unknown identifier and a wrong password are indistinguishable to
      the client. */
  lemma LoginFailuresIndistinguishable(s: Store, identifier: string, password: string, other: string,
                                       compare: (string, string) -> bool, sign: Id -> string)
    requires identifier != "" && password != ""
    requires FindUserByIdentifier(s, identifier).Some?
    requires !compare(password, FindUserByIdentifier(s, identifier).value.passwordHash)
    requires other != "" && FindUserByIdentifier(s, other).None?
    ensures Login(s, LoginBody(Given(identifier), Given(password)), compare, sign).response
         == Login(s, LoginBody(Given(other), Given(password)), compare, sign).response
  {
  }

  // ----- The register pre-check -----

  /** No identifier names two different users: the usernames and e-mails of
      distinct users are pairwise different, across the two columns too. */
  ghost predicate Unambiguous(s: Store) {
    forall i, j :: 0 <= i < |s.users| && 0 <= j < |s.users| && i != j ==>
      && s.users[i].username != s.users[j].username && s.users[i].username != s.users[j].email
      && s.users[i].email != s.users[j].email
  }

  /** As written, an e-mail equal to another user's username passes both the
      pre-check and the unique constraints, and from then on that identifier
      names two accounts. */
  lemma RegisterAdmitsAmbiguousEmail(hash: string -> string, sign: Id -> string)
    ensures var s := Store([User("1", "bob", "bob@example.org", "h", 0, 0)], [], []);
            var o := Register(s, "2", 1, RegisterBody(Given("carol"), Given("bob"), Given("pw")), hash, sign);
            && Unambiguous(s)
            && o.response.status == 201
            && o.store.users[0].username == "bob" && o.store.users[1].email == "bob"
            && !Unambiguous(o.store)
  {
    var s := Store([User("1", "bob", "bob@example.org", "h", 0, 0)], [], []);
    var o := Register(s, "2", 1, RegisterBody(Given("carol"), Given("bob"), Given("pw")), hash, sign);
    assert !Taken(s, "carol", "bob") by {
      forall u | u in s.users ensures u.username != "carol" && u.email != "carol" && u.email != "bob" {
        assert u == s.users[0];
      }
    }
    assert o.store.users[0].username == o.store.users[1].email;
  }

  /** The pre-check as evidently intended: both the username and the e-mail
      are looked up as identifiers before the insert. */
  function RegisterChecked(s: Store, newId: Id, now: Timestamp, body: RegisterBody, hash: string -> string,
                           sign: Id -> string)
    : (o: Outcome)
    ensures o.response.status == 400 <==>
              !(TruthyText(body.username) && TruthyText(body.email) && TruthyText(body.password))
    ensures o.response.status != 400 ==>
              (o.response.status == 409 <==>
                 exists u :: u in s.users && (u.username in {body.username.value, body.email.value}
                                              || u.email in {body.username.value, body.email.value}))
    ensures o.response.status == 409 ==> o.store == s
    ensures o.response.status == 201 ==>
              && o.response == Welcome(201, Registered, newId, body.username.value, body.email.value, sign)
              && o.store == s.(users := s.users + [User(newId, body.username.value, body.email.value,
                                                        hash(body.password.value), now, now)])
    ensures o.response.status in {201, 400, 409}
  {
    if !(TruthyText(body.username) && TruthyText(body.email) && TruthyText(body.password)) then
      Reply(s, 400, RegisterFieldsRequired)
    else if FindUserByIdentifier(s, body.username.value).Some? || FindUserByIdentifier(s, body.email.value).Some? then
      Reply(s, 409, AlreadyTaken)
    else
      match CreateUser(s, newId, now, body.username.value, body.email.value, body.password.value, hash)
      case Failure(message) => Reply(s, 409, message)
      case Success(Write(t, created)) =>
        Outcome(Welcome(201, Registered, created.id, created.username, created.email, sign), t)
  }

  /** With the intended pre-check no identifier ever names two accounts. */
  lemma RegisterCheckedKeepsUnambiguous(s: Store, newId: Id, now: Timestamp, body: RegisterBody,
                                        hash: string -> string, sign: Id -> string)
    requires Unambiguous(s)
    ensures Unambiguous(RegisterChecked(s, newId, now, body, hash, sign).store)
  {
    var o := RegisterChecked(s, newId, now, body, hash, sign);
    if o.response.status == 201 {
      var t := o.store.users;
      var n := |s.users|;
      forall i | 0 <= i < n
        ensures t[i] == s.users[i]
        ensures t[i].username != t[n].username && t[i].username != t[n].email
        ensures t[i].email != t[n].email && t[i].email != t[n].username
      {
        assert s.users[i] in s.users;
      }
    }
  }

  /** Round trip: after a registration with the intended pre-check, logging
      in with the new e-mail or the new username and the same password
      signs in as the new user, provided `compare` accepts a password
      against its own hash. */
  lemma RegisterThenLogin(s: Store, newId: Id, now: Timestamp, body: RegisterBody, hash: string -> string,
                          compare: (string, string) -> bool, sign: Id -> string, byEmail: bool)
    requires forall p :: compare(p, hash(p))
    requires RegisterChecked(s, newId, now, body, hash, sign).response.status == 201
    ensures var t := RegisterChecked(s, newId, now, body, hash, sign).store;
            var id := if byEmail then body.email else body.username;
            Login(t, LoginBody(id, body.password), compare, sign).response
              == Welcome(200, LoggedIn, newId, body.username.value, body.email.value, sign)
  {
    var t := RegisterChecked(s, newId, now, body, hash, sign).store;
    var id := if byEmail then body.email.value else body.username.value;
    var created := User(newId, body.username.value, body.email.value, hash(body.password.value), now, now);
    var found := FindUserByIdentifier(t, id);
    assert created in t.users;
    assert found.Some?;
    assert found.value !in s.users;
    assert found.value == created;
  }
}

=== FILE: auth_middleware.dfy ===
/** The bearer-token middleware in front of the asset and maintenance
    routes. Token verification (signature and expiry) is the parameter
    `verify`, which yields the id the token carries or nothing. */
module AuthMiddleware {
  import opened Wrappers
  import opened Schema
  import opened Http

  /** The position of the first `sep` in `s`, or `|s|` when there is none. */
  function IndexOf(s: string, sep: char): (i: nat)
    ensures i <= |s|
    ensures i < |s| ==> s[i] == sep
    ensures forall j :: 0 <= j < i ==> s[j] != sep
  {
    if |s| == 0 || s[0] == sep then 0 else 1 + IndexOf(s[1..], sep)
  }

  /** Pieces glued back with the separator between them. */
  function Join(pieces: seq<string>, sep: char): string
    requires |pieces| > 0
  {
    if |pieces| == 1 then pieces[0] else pieces[0] + [sep] + Join(pieces[1..], sep)
  }

  /** JavaScript's `s.split(sep)` for a one-character separator: the maximal
      separator-free pieces, empty ones included, at least one piece. */
  function Split(s: string, sep: char): (r: seq<string>)
    ensures |r| > 0
    ensures forall k :: 0 <= k < |r| ==> sep !in r[k]
    ensures Join(r, sep) == s
    ensures r[0] == s[..IndexOf(s, sep)]
    decreases |s|
  {
    var i := IndexOf(s, sep);
    if i == |s| then
      assert s[..i] == s;
      [s]
    else
      var rest := Split(s[i + 1..], sep);
      assert s == s[..i] + [sep] + s[i + 1..];
      [s[..i]] + rest
  }

  /** Split undoes Join for separator-free pieces: the pieces of a header are
      determined by the header. */
  lemma {:induction false} SplitJoin(pieces: seq<string>, sep: char)
    requires |pieces| > 0
    requires forall k :: 0 <= k < |pieces| ==> sep !in pieces[k]
    ensures Split(Join(pieces, sep), sep) == pieces
  {
    if |pieces| > 1 {
      var s := Join(pieces, sep);
      var p := pieces[0];
      assert s == p + [sep] + Join(pieces[1..], sep);
      assert IndexOf(s, sep) == |p| by {
        assert s[|p|] == sep;
        assert forall j :: 0 <= j < |p| ==> s[j] == p[j];
      }
      assert s[..|p|] == p;
      assert s[|p| + 1..] == Join(pieces[1..], sep);
      SplitJoin(pieces[1..], sep);
    } else {
      assert IndexOf(pieces[0], sep) == |pieces[0]|;
    }
  }

  /** `authHeader && authHeader.split(' ')[1]`: no header gives nothing, the
      empty header gives itself (the `&&` stops at the falsy string), and any
      other header gives its second space-separated piece if it has one. */
  function ExtractToken(header: Option<string>): (t: Option<string>)
    ensures header.None? ==> t.None?
    ensures header == Some("") ==> t == Some("")
    ensures t.Some? && header.value != "" ==> t.value in Split(header.value, ' ') && ' ' !in t.value
    ensures header.Some? && header.value != "" ==> (t.Some? <==> ' ' in header.value)
    ensures header.Some? && ' ' in header.value ==>
              var h := header.value;
              var i := IndexOf(h, ' ');
              && i < |h|
              && t.Some? && t.value <= h[i + 1..]
              && (i + 1 + |t.value| == |h| || h[i + 1 + |t.value|] == ' ')
  {
    match header
    case None => None
    case Some(h) =>
      if h == "" then Some("")
      else
        var pieces := Split(h, ' ');
        var i := IndexOf(h, ' ');
        assert i < |h| ==> |pieces| >= 2 && pieces[1] == Split(h[i + 1..], ' ')[0];
        assert i == |h| ==> h[..i] == h;
        if |pieces| >= 2 then Some(pieces[1]) else None
  }

  /** The token is the second space-separated piece whatever follows it:
      for `a b rest`, with `a` and `b` free of spaces and `rest` empty or
      starting with a space, the token is `b`. */
  lemma TokenIsSecondPiece(a: string, b: string, rest: string)
    requires ' ' !in a && ' ' !in b
    requires rest == [] || rest[0] == ' '
    ensures ExtractToken(Some(a + " " + b + rest)) == Some(b)
  {
    var h := a + " " + b + rest;
    var u := b + rest;
    assert h == a + [' '] + u;
    assert IndexOf(h, ' ') == |a| by {
      assert h[|a|] == ' ';
      assert forall j :: 0 <= j < |a| ==> h[j] == a[j];
    }
    assert h[|a| + 1..] == u;
    var t := ExtractToken(Some(h)).value;
    assert t <= u && ' ' !in t;
    assert |t| == |u| || u[|t|] == ' ' by {
      assert |a| + 1 + |t| == |h| || h[|a| + 1 + |t|] == ' ';
    }
    assert t == u[..|b|] == b;
  }

  const NoToken := "Authentication required: No token provided."
  const BadToken := "Forbidden: Invalid or expired token."

  /** What the middleware does: answer the request itself, or call `next`
      once with the decoded id attached as the request's user. */
  datatype Decision = Halt(response: Response) | Next(user: Id)

  /** `authenticateToken`: 401 without a token, 403 when the token does not
      verify, otherwise on to the handler with the id the token carries. */
  function AuthenticateToken(header: Option<string>, verify: string -> Option<Id>): (d: Decision)
    ensures d == Halt(Response(401, Message(NoToken))) <==> ExtractToken(header).None?
    ensures d == Halt(Response(403, Message(BadToken))) <==>
              ExtractToken(header).Some? && verify(ExtractToken(header).value).None?
    ensures d.Next? <==> ExtractToken(header).Some? && verify(ExtractToken(header).value).Some?
    ensures d.Next? ==> d.user == verify(ExtractToken(header).value).value
  {
    match ExtractToken(header)
    case None => Halt(Response(401, Message(NoToken)))
    case Some(token) =>
      match verify(token)
      case None => Halt(Response(403, Message(BadToken)))
      case Some(id) => Next(id)
  }

  /** `Bearer <token>` yields the token, for any token without a space. */
  lemma BearerRoundTrip(token: string)
    requires ' ' !in token
    ensures ExtractToken(Some("Bearer " + token)) == Some(token)
  {
    SplitJoin(["Bearer", token], ' ');
    assert Join(["Bearer", token], ' ') == "Bearer " + token;
  }

  /** Exactly the missing header and a non-empty header without a space get
      the 401. */
  lemma NoTokenExactly(header: Option<string>)
    ensures ExtractToken(header).None? <==> header.None? || (header.value != "" && ' ' !in header.value)
  {
    if header.Some? && header.value != "" {
      var pieces := Split(header.value, ' ');
      if ' ' !in header.value {
        SplitJoin([header.value], ' ');
      } else {
        assert Join(pieces, ' ') != pieces[0];
      }
    }
  }

  /** A doubled space yields the empty token, which is present and so goes
      to verification: the request is refused with 403, not 401, unless the
      empty string verifies. */
  lemma DoubleSpaceGoesToVerification(token: string, verify: string -> Option<Id>)
    requires ' ' !in token && verify("").None?
    ensures ExtractToken(Some("Bearer  " + token)) == Some("")
    ensures AuthenticateToken(Some("Bearer  " + token), verify) == Halt(Response(403, Message(BadToken)))
  {
    SplitJoin(["Bearer", "", token], ' ');
    assert Join(["Bearer", "", token], ' ') == "Bearer  " + token;
  }

  /** A request that reaches a handler carries the id its token verified to;
      the handler then answers 401 only for an empty id. */
  lemma PassedRequestsAreSignedIn(header: Option<string>, verify: string -> Option<Id>)
    requires AuthenticateToken(header, verify).Next?
    ensures var id := AuthenticateToken(header, verify).user;
            SignedIn(Some(id)) <==> id != ""
  {
  }
}

=== FILE: auth_page.dfy ===
/** The sign-in page's password-strength rule and its submit gate. Passwords
    are checked only on the register tab; the login tab sends whatever was
    typed. */
module AuthPage {
  /** The character classes the rule's regular expressions test for:
      `[A-Z]`, `[a-z]`, `[0-9]` and `[^A-Za-z0-9]`. */
  datatype CharClass = Upper | Lower | Digit | Special

  predicate InClass(c: char, k: CharClass) {
    match k
    case Upper => 'A' <= c <= 'Z'
    case Lower => 'a' <= c <= 'z'
    case Digit => '0' <= c <= '9'
    case Special => !('A' <= c <= 'Z' || 'a' <= c <= 'z' || '0' <= c <= '9')
  }

  /** `/[...]/.test(pwd)`: some character of `pwd` is in the class. */
  function Test(pwd: string, k: CharClass): (found: bool)
    ensures found <==> exists i :: 0 <= i < |pwd| && InClass(pwd[i], k)
  {
    if |pwd| == 0 then false
    else if InClass(pwd[0], k) then true
    else
      var rest := Test(pwd[1..], k);
      assert forall i :: 1 <= i < |pwd| ==> pwd[i] == pwd[1..][i - 1];
      assert rest ==> exists i :: 1 <= i < |pwd| && InClass(pwd[i], k) by {
        if rest {
          var j :| 0 <= j < |pwd[1..]| && InClass(pwd[1..][j], k);
          assert InClass(pwd[j + 1], k);
        }
      }
      rest
  }

  const MinLength := 8

  /** The five checks, in the order the page runs them. */
  datatype Rule = LongEnough | HasUpper | HasLower | HasDigit | HasSpecial

  const Order: seq<Rule> := [LongEnough, HasUpper, HasLower, HasDigit, HasSpecial]

  /** What each check demands of the password, stated on its characters. */
  ghost predicate Passes(pwd: string, r: Rule) {
    match r
    case LongEnough => |pwd| >= MinLength
    case HasUpper => exists i :: 0 <= i < |pwd| && InClass(pwd[i], Upper)
    case HasLower => exists i :: 0 <= i < |pwd| && InClass(pwd[i], Lower)
    case HasDigit => exists i :: 0 <= i < |pwd| && InClass(pwd[i], Digit)
    case HasSpecial => exists i :: 0 <= i < |pwd| && InClass(pwd[i], Special)
  }

  /** The helper text shown under the field when a check fails. */
  function HelperText(r: Rule): (t: string)
    ensures |t| > 0
  {
    match r
    case LongEnough => "A senha deve ter no mínimo 8 caracteres."
    case HasUpper => "A senha deve conter ao menos uma letra maiúscula."
    case HasLower => "A senha deve conter ao menos uma letra minúscula."
    case HasDigit => "A senha deve conter ao menos um número."
    case HasSpecial => "A senha deve conter ao menos um caractere especial."
  }

  /** The verdict and the helper text `validatePassword` leaves behind. */
  datatype Validation = Validation(valid: bool, helperText: string)

  /** `validatePassword`: valid exactly when every check passes; otherwise
      the helper text names the first check, in page order, that fails; on
      success the helper text is cleared. */
  function ValidatePassword(pwd: string): (v: Validation)
    ensures v.valid <==> forall r :: Passes(pwd, r)
    ensures v.valid <==> v.helperText == ""
    ensures !v.valid ==>
              exists k :: 0 <= k < |Order| && !Passes(pwd, Order[k])
                          && (forall j :: 0 <= j < k ==> Passes(pwd, Order[j]))
                          && v.helperText == HelperText(Order[k])
  {
    if |pwd| < MinLength then
      assert !Passes(pwd, Order[0]);
      Validation(false, HelperText(Order[0]))
    else if !Test(pwd, Upper) then
      assert !Passes(pwd, Order[1]) && Passes(pwd, Order[0]);
      Validation(false, HelperText(Order[1]))
    else if !Test(pwd, Lower) then
      assert !Passes(pwd, Order[2]) && Passes(pwd, Order[0]) && Passes(pwd, Order[1]);
      Validation(false, HelperText(Order[2]))
    else if !Test(pwd, Digit) then
      assert !Passes(pwd, Order[3]) && Passes(pwd, Order[0]) && Passes(pwd, Order[1]) && Passes(pwd, Order[2]);
      Validation(false, HelperText(Order[3]))
    else if !Test(pwd, Special) then
      assert !Passes(pwd, Order[4]) && Passes(pwd, Order[0]) && Passes(pwd, Order[1]) && Passes(pwd, Order[2]);
      assert Passes(pwd, Order[3]);
      Validation(false, HelperText(Order[4]))
    else
      EveryRulePasses(pwd);
      Validation(true, "")
  }

  /** The five tests together cover every rule. */
  lemma EveryRulePasses(pwd: string)
    requires |pwd| >= MinLength
    requires Test(pwd, Upper) && Test(pwd, Lower) && Test(pwd, Digit) && Test(pwd, Special)
    ensures forall r :: Passes(pwd, r)
  {
    forall r ensures Passes(pwd, r) {
      match r
      case LongEnough =>
      case HasUpper =>
      case HasLower =>
      case HasDigit =>
      case HasSpecial =>
    }
  }

  /** The two tabs (`tabValue` 0 and 1). */
  datatype Tab = LoginTab | RegisterTab

  /** `handlePasswordChange`: the error flag and helper text while typing. */
  function PasswordFeedback(tab: Tab, pwd: string): (f: (bool, string))
    ensures tab == LoginTab ==> f == (false, "")
    ensures tab == RegisterTab ==> (f.0 <==> exists r :: !Passes(pwd, r))
    ensures f.0 <==> f.1 != ""
  {
    if tab == RegisterTab then
      var v := ValidatePassword(pwd);
      (!v.valid, v.helperText)
    else (false, "")
  }

  /** The request a submit sends. The login form's e-mail field is sent as
      the identifier. */
  datatype Request = PostLogin(identifier: string, password: string)
                   | PostRegister(username: string, email: string, password: string)

  datatype Submission = Blocked(helperText: string) | Sent(request: Request)

  /** `handleSubmit`: on the register tab a weak password stops the submit
      before any request, with the helper text of the first failing check. */
  function HandleSubmit(tab: Tab, username: string, email: string, password: string): (r: Submission)
    ensures r.Blocked? <==> tab == RegisterTab && exists rule :: !Passes(password, rule)
    ensures r.Blocked? ==> r.helperText == ValidatePassword(password).helperText && r.helperText != ""
    ensures r.Sent? && r.request.PostRegister? ==> forall rule :: Passes(r.request.password, rule)
    ensures r.Sent? ==> r.request.password == password
    ensures r.Sent? && tab == LoginTab ==> r.request == PostLogin(email, password)
    ensures r.Sent? && tab == RegisterTab ==> r.request == PostRegister(username, email, password)
  {
    if tab == RegisterTab then
      var v := ValidatePassword(password);
      if !v.valid then Blocked(v.helperText) else Sent(PostRegister(username, email, password))
    else Sent(PostLogin(email, password))
  }

  /** The login tab never validates: any two passwords are both sent. */
  lemma LoginNeverValidates(username: string, email: string, p: string, q: string)
    ensures HandleSubmit(LoginTab, username, email, p).Sent? && HandleSubmit(LoginTab, username, email, q).Sent?
  {
  }

  /** A password meeting every rule is accepted. */
  lemma AcceptsStrongPassword()
    ensures ValidatePassword("Abcdef1!").valid
  {
    var p := "Abcdef1!";
    assert InClass(p[0], Upper) && InClass(p[1], Lower) && InClass(p[6], Digit) && InClass(p[7], Special);
  }
}

=== FILE: http.dfy ===
/** The HTTP side of a handler: the authenticated caller, the response it
    sends and the store it leaves behind. */
module Http {
  import opened Wrappers
  import opened Schema

  /** `{ id, username, email }` as the auth endpoints return it. */
  datatype UserView = UserView(id: Id, username: string, email: string)

  /** The JSON bodies the handlers send. */
  datatype Body =
    | Message(text: string)                                   // { message }
    | Authenticated(message: string, user: UserView, token: string)
    | AssetCreated(message: string, asset: Asset)             // { message, asset }
    | AssetList(assets: seq<Asset>)                           // { assets }
    | AssetJson(asset: Asset)                                 // the asset itself
    | MaintenanceCreated(message: string, maintenance: Maintenance)
    | MaintenanceList(maintenances: seq<Maintenance>)         // { maintenances }
    | MaintenanceWrapped(maintenance: Maintenance)            // { maintenance }
    | MaintenanceJson(maintenance: Maintenance)               // the row itself
    | DueList(rows: seq<DueRow>)                              // { maintenances }
    | NoContent

  datatype Response = Response(status: int, body: Body)

  /** What a handler produces: its response and the store after it. */
  datatype Outcome = Outcome(response: Response, store: Store)

  /** `req.user?.id` is present and truthy (`!userId` rejects `""`). */
  predicate SignedIn(user: Option<Id>) {
    user.Some? && user.value != ""
  }

  const NotAuthenticated := "User not authenticated."

  /** The reply every protected handler sends first when `!userId`. */
  function Unauthenticated(s: Store): (o: Outcome)
    ensures o.response.status == 401 && o.store == s
  {
    Outcome(Response(401, Message(NotAuthenticated)), s)
  }

  function Reply(s: Store, status: int, text: string): (o: Outcome)
    ensures o.response.status == status && o.store == s
  {
    Outcome(Response(status, Message(text)), s)
  }
}

=== FILE: json.dfy ===
/** Request-body values as JavaScript sees them, and the coercions the
    controllers and services apply to them before they reach SQL. */
module Json {
  import opened Wrappers

  /** A body field: left out (`undefined`), JSON `null`, or a value. */
  datatype Field<+T> = Absent | Null | Given(value: T)

  /** A date as the client sends it: the empty string, or a calendar day
      (a day number; the wire format is `YYYY-MM-DD`). */
  datatype DateText = Blank | Date(day: int)

  /** JavaScript truthiness of a string field: `!s` fails for `undefined`,
      `null` and `''`. */
  predicate TruthyText(f: Field<string>) {
    f.Given? && f.value != ""
  }

  /** Truthiness of a date field: `''` is falsy, a date string is not. */
  predicate TruthyDate(f: Field<DateText>) {
    f.Given? && f.value.Date?
  }

  /** Truthiness of a boolean field. */
  predicate TruthyFlag(f: Field<bool>) {
    f.Given? && f.value
  }

  /** How a parameter binds in node-postgres: `undefined` and `null` both
      become SQL NULL. */
  function Nullable<T>(f: Field<T>): (r: Option<T>)
    ensures r.Some? <==> f.Given?
    ensures r.Some? ==> r.value == f.value
  {
    if f.Given? then Some(f.value) else None
  }

  /** `x || null` on a date: only a real date survives. */
  function DateOrNull(f: Field<DateText>): (r: Option<int>)
    ensures r.Some? <==> TruthyDate(f)
    ensures r.Some? ==> r.value == f.value.day
  {
    if TruthyDate(f) then Some(f.value.day) else None
  }

  /** `x ?? false`: `undefined` and `null` give `false`. */
  function FlagOrFalse(f: Field<bool>): (r: bool)
    ensures r <==> TruthyFlag(f)
  {
    if f.Given? then f.value else false
  }

  /** `x || undefined` on a string: a falsy value is dropped. */
  function TextOrAbsent(f: Field<string>): (r: Field<string>)
    ensures r.Given? <==> TruthyText(f)
    ensures !r.Null?
    ensures r.Given? ==> r == f
  {
    if TruthyText(f) then f else Absent
  }

  /** `x || undefined` on a date. */
  function DateOrAbsent(f: Field<DateText>): (r: Field<DateText>)
    ensures r.Given? <==> TruthyDate(f)
    ensures !r.Null?
    ensures r.Given? ==> r == f
  {
    if TruthyDate(f) then f else Absent
  }

  /** `x === '' ? null : x`: the empty date means "clear the date". */
  function BlankToNull(f: Field<DateText>): (r: Field<DateText>)
    ensures r.Absent? <==> f.Absent?
    ensures r.Null? <==> (f.Null? || f == Given(Blank))
    ensures r.Given? ==> r == f && r.value.Date?
  {
    if f == Given(Blank) then Null else f
  }
}

=== FILE: maintenance_controller.dfy ===
/** The maintenance handlers. Every maintenance is reached through an asset
    and every handler first looks that asset up under the caller's id, so a
    maintenance of another user's asset answers 404 like a missing one. */
module MaintenanceController {
  import opened Wrappers
  import opened Relational
  import opened Json
  import opened Schema
  import opened Http
  import AssetService
  import opened MaintenanceService

  /** The body of `POST /maintenances`. */
  datatype MaintenanceBody = MaintenanceBody(
    assetId: Field<string>,
    serviceDescription: Field<string>,
    completionDate: Field<DateText>,
    nextDueDate: Field<DateText>,
    notes: Field<string>,
    isCompleted: Field<bool>)

  const FieldsRequired := "Asset ID and service description are required."
  const CompletionDateRequired := "Completion date is required if maintenance is marked as completed."
  const AssetNotFoundToAdd := "Asset not found or you do not have permission to add maintenance to it."
  const CreatedMessage := "Maintenance log created successfully."
  const AssetNotFoundToView := "Asset not found or you do not have permission to view its maintenance logs."
  const LogNotFound := "Maintenance log not found or does not belong to this asset."
  const NothingToUpdate := "At least one field (service_description, completion_date, next_due_date, notes, or is_completed) is required for update."
  const AssetNotFoundToUpdate := "Asset not found or you do not have permission to update its maintenance logs."
  const UpdateFailed := "Failed to update maintenance log."
  const AssetNotFoundToDelete := "Asset not found or you do not have permission to delete its maintenance logs."

  /** The caller owns an asset under this key. */
  predicate Owns(s: Store, user: Id, assetId: Id) {
    AssetService.GetAssetByIdAndUserId(s, assetId, user).Some?
  }

  /** What the create handler hands to the service: empty strings dropped
      (`|| undefined`) and the flag defaulted (`?? false`). */
  function Normalized(body: MaintenanceBody): (n: NewMaintenance)
    requires body.assetId.Given? && body.serviceDescription.Given?
    ensures n.assetId == body.assetId.value && n.serviceDescription == body.serviceDescription.value
    ensures n.completionDate.Given? <==> TruthyDate(body.completionDate)
    ensures n.nextDueDate.Given? <==> TruthyDate(body.nextDueDate)
    ensures n.notes.Given? <==> TruthyText(body.notes)
    ensures TruthyDate(body.completionDate) ==> n.completionDate == body.completionDate
    ensures TruthyDate(body.nextDueDate) ==> n.nextDueDate == body.nextDueDate
    ensures TruthyText(body.notes) ==> n.notes == body.notes
    ensures n.isCompleted == Given(TruthyFlag(body.isCompleted))
  {
    NewMaintenance(body.assetId.value, body.serviceDescription.value,
                   DateOrAbsent(body.completionDate), DateOrAbsent(body.nextDueDate),
                   TextOrAbsent(body.notes), Given(FlagOrFalse(body.isCompleted)))
  }

  /** `POST /maintenances`. The two 400s depend on the body alone; the 404
      covers a missing asset and another user's asset alike. A log created
      as completed always carries its completion date. */
  function CreateMaintenanceLog(s: Store, newId: Id, now: Timestamp, user: Option<Id>, body: MaintenanceBody)
    : (o: Outcome)
    ensures !SignedIn(user) ==> o == Unauthenticated(s)
    ensures o.response.status == 401 <==> !SignedIn(user)
    ensures o.response.status == 400 <==>
              && SignedIn(user)
              && (|| !TruthyText(body.assetId) || !TruthyText(body.serviceDescription)
                  || (TruthyFlag(body.isCompleted) && !TruthyDate(body.completionDate)))
    ensures o.response.status == 400 ==> o.store == s
    ensures o.response.status == 404 <==>
              && SignedIn(user) && TruthyText(body.assetId) && TruthyText(body.serviceDescription)
              && !(TruthyFlag(body.isCompleted) && !TruthyDate(body.completionDate))
              && !Owns(s, user.value, body.assetId.value)
    ensures o.response.status == 404 ==> o == Reply(s, 404, AssetNotFoundToAdd)
    ensures o.response.status == 201 ==>
              && o.response.body.MaintenanceCreated?
              && var m := o.response.body.maintenance;
                 && m.id == newId
                 && m.assetId == body.assetId.value && Owns(s, user.value, m.assetId)
                 && m.serviceDescription == body.serviceDescription.value && m.serviceDescription != ""
                 && m.completionDate == (if TruthyDate(body.completionDate) then Some(body.completionDate.value.day) else None)
                 && m.nextDueDate == (if TruthyDate(body.nextDueDate) then Some(body.nextDueDate.value.day) else None)
                 && m.notes == (if TruthyText(body.notes) then Some(body.notes.value) else None)
                 && m.isCompleted == Some(TruthyFlag(body.isCompleted))
                 && (m.isCompleted == Some(true) ==> m.completionDate.Some?)
                 && o.store.maintenances == s.maintenances + [m]
                 && o.store.users == s.users && o.store.assets == s.assets
    ensures o.response.status in {201, 400, 401, 404}
  {
    if !SignedIn(user) then Unauthenticated(s)
    else if !TruthyText(body.assetId) || !TruthyText(body.serviceDescription) then Reply(s, 400, FieldsRequired)
    else if TruthyFlag(body.isCompleted) && !TruthyDate(body.completionDate) then Reply(s, 400, CompletionDateRequired)
    else if !Owns(s, user.value, body.assetId.value) then Reply(s, 404, AssetNotFoundToAdd)
    else
      var w := CreateMaintenance(s, newId, now, Normalized(body));
      Outcome(Response(201, MaintenanceCreated(CreatedMessage, w.result)), w.store)
  }

  /** `GET /maintenances/asset/:asset_id`: the logs of one of the caller's
      assets, newest first. */
  function GetAssetMaintenanceLogs(s: Store, user: Option<Id>, assetId: Id): (o: Outcome)
    ensures o.store == s
    ensures !SignedIn(user) ==> o == Unauthenticated(s)
    ensures o.response.status == 401 <==> !SignedIn(user)
    ensures SignedIn(user) ==> (o.response.status == 404 <==> !Owns(s, user.value, assetId))
    ensures o.response.status == 404 ==> o == Reply(s, 404, AssetNotFoundToView)
    ensures o.response.status == 200 ==>
              && o.response.body.MaintenanceList?
              && (forall m :: m in o.response.body.maintenances <==> m in s.maintenances && m.assetId == assetId)
              && (forall m :: multiset(o.response.body.maintenances)[m] ==
                    if m.assetId == assetId then multiset(s.maintenances)[m] else 0)
              && (forall i, j :: 0 <= i < j < |o.response.body.maintenances| ==>
                    o.response.body.maintenances[i].createdAt >= o.response.body.maintenances[j].createdAt)
    ensures o.response.status in {200, 401, 404}
  {
    if !SignedIn(user) then Unauthenticated(s)
    else if !Owns(s, user.value, assetId) then Reply(s, 404, AssetNotFoundToView)
    else Outcome(Response(200, MaintenanceList(GetMaintenanceLogsByAssetId(s, assetId))), s)
  }

  /** `GET /maintenances/asset/:asset_id/:id`: 404 for the asset, then 404
      for the log, then 200 with `{ maintenance }`. */
  function GetMaintenanceLog(s: Store, user: Option<Id>, assetId: Id, maintenanceId: Id): (o: Outcome)
    ensures o.store == s
    ensures !SignedIn(user) ==> o == Unauthenticated(s)
    ensures o.response.status == 401 <==> !SignedIn(user)
    ensures SignedIn(user) && !Owns(s, user.value, assetId) ==> o == Reply(s, 404, AssetNotFoundToView)
    ensures SignedIn(user) && Owns(s, user.value, assetId) ==>
              (o.response.status == 404 <==> GetMaintenanceByIdAndAssetId(s, maintenanceId, assetId).None?)
    ensures o.response.status == 200 ==>
              && o.response.body.MaintenanceWrapped?
              && var m := o.response.body.maintenance;
                 m in s.maintenances && m.id == maintenanceId && m.assetId == assetId && Owns(s, user.value, assetId)
    ensures o.response.status in {200, 401, 404}
  {
    if !SignedIn(user) then Unauthenticated(s)
    else if !Owns(s, user.value, assetId) then Reply(s, 404, AssetNotFoundToView)
    else
      match GetMaintenanceByIdAndAssetId(s, maintenanceId, assetId)
      case None => Reply(s, 404, LogNotFound)
      case Some(m) => Outcome(Response(200, MaintenanceWrapped(m)), s)
  }

  /** No field of the update body is present. */
  predicate NoFields(body: MaintenancePatch) {
    && body.serviceDescription.Absent? && body.completionDate.Absent? && body.nextDueDate.Absent?
    && body.notes.Absent? && body.isCompleted.Absent?
  }

  /** `is_completed === true && !completion_date`: checked on the body, not
      on the stored row. */
  predicate CompletedWithoutDate(body: MaintenancePatch) {
    body.isCompleted == Given(true) && !TruthyDate(body.completionDate)
  }

  /** What the update handler hands to the service: an empty date string
      becomes null. */
  function ToPatch(body: MaintenancePatch): (p: MaintenancePatch)
    ensures p.serviceDescription == body.serviceDescription && p.notes == body.notes
    ensures p.isCompleted == body.isCompleted
    ensures p.completionDate == BlankToNull(body.completionDate) && p.nextDueDate == BlankToNull(body.nextDueDate)
  {
    body.(completionDate := BlankToNull(body.completionDate), nextDueDate := BlankToNull(body.nextDueDate))
  }

  /** `PUT /maintenances/asset/:asset_id/:id`. Marking a log completed in the
      body needs a date in the same body; the row comes back with it. */
  function UpdateMaintenanceLog(s: Store, now: Timestamp, user: Option<Id>, assetId: Id, maintenanceId: Id,
                                body: MaintenancePatch)
    : (o: Outcome)
    ensures !SignedIn(user) ==> o == Unauthenticated(s)
    ensures o.response.status == 401 <==> !SignedIn(user)
    ensures o.response.status == 400 <==> SignedIn(user) && (NoFields(body) || CompletedWithoutDate(body))
    ensures o.response.status == 400 ==> o.store == s
    ensures SignedIn(user) && !NoFields(body) && !CompletedWithoutDate(body) && !Owns(s, user.value, assetId) ==>
              o == Reply(s, 404, AssetNotFoundToUpdate)
    ensures o.response.status == 500 <==>
              && SignedIn(user) && !NoFields(body) && !CompletedWithoutDate(body) && Owns(s, user.value, assetId)
              && body.serviceDescription.Null? && GetMaintenanceByIdAndAssetId(s, maintenanceId, assetId).Some?
    ensures o.response.status == 500 ==> o == Reply(s, 500, UpdateFailed)
    ensures SignedIn(user) && !NoFields(body) && !CompletedWithoutDate(body) && Owns(s, user.value, assetId) ==>
              (o.response.status == 404 <==> GetMaintenanceByIdAndAssetId(s, maintenanceId, assetId).None?)
    ensures o.response.status == 404 ==> o.store == s
    ensures o.response.status == 200 ==>
              && Owns(s, user.value, assetId)
              && o.response.body.MaintenanceJson?
              && GetMaintenanceByIdAndAssetId(s, maintenanceId, assetId).Some?
              && o.response.body.maintenance ==
                   Patched(GetMaintenanceByIdAndAssetId(s, maintenanceId, assetId).value, ToPatch(body), now)
              && o.store == s.(maintenances := PatchRows(s.maintenances, maintenanceId, assetId, ToPatch(body), now))
              && (body.isCompleted == Given(true) ==> o.response.body.maintenance.completionDate.Some?)
    ensures o.response.status in {200, 400, 401, 404, 500}
  {
    if !SignedIn(user) then Unauthenticated(s)
    else if NoFields(body) then Reply(s, 400, NothingToUpdate)
    else if CompletedWithoutDate(body) then Reply(s, 400, CompletionDateRequired)
    else if !Owns(s, user.value, assetId) then Reply(s, 404, AssetNotFoundToUpdate)
    else
      match UpdateMaintenance(s, maintenanceId, assetId, ToPatch(body), now)
      case Failure(_) => Reply(s, 500, UpdateFailed)
      case Success(Write(t, None)) => Reply(s, 404, LogNotFound)
      case Success(Write(t, Some(m))) => Outcome(Response(200, MaintenanceJson(m)), t)
  }

  /** `DELETE /maintenances/asset/:asset_id/:id`: 404 for the asset, 404 for
      the log, 204 once it is gone. */
  function DeleteMaintenanceLog(s: Store, user: Option<Id>, assetId: Id, maintenanceId: Id): (o: Outcome)
    ensures !SignedIn(user) ==> o == Unauthenticated(s)
    ensures o.response.status == 401 <==> !SignedIn(user)
    ensures SignedIn(user) && !Owns(s, user.value, assetId) ==> o == Reply(s, 404, AssetNotFoundToDelete)
    ensures SignedIn(user) && Owns(s, user.value, assetId) ==>
              (o.response.status == 404 <==> GetMaintenanceByIdAndAssetId(s, maintenanceId, assetId).None?)
    ensures o.response.status == 404 ==> o.store == s
    ensures o.response.status == 204 ==>
              && o.response.body == NoContent
              && Owns(s, user.value, assetId)
              && GetMaintenanceByIdAndAssetId(o.store, maintenanceId, assetId).None?
              && (forall m :: m in o.store.maintenances <==>
                    m in s.maintenances && !(m.id == maintenanceId && m.assetId == assetId))
              && (forall m :: multiset(o.store.maintenances)[m] ==
                    if m.id == maintenanceId && m.assetId == assetId then 0 else multiset(s.maintenances)[m])
              && o.store.users == s.users && o.store.assets == s.assets
    ensures o.response.status in {204, 401, 404}
  {
    if !SignedIn(user) then Unauthenticated(s)
    else if !Owns(s, user.value, assetId) then Reply(s, 404, AssetNotFoundToDelete)
    else
      var w := DeleteMaintenance(s, maintenanceId, assetId);
      if !w.result then Reply(s, 404, LogNotFound)
      else Outcome(Response(204, NoContent), w.store)
  }

  /** `GET /maintenances/summary`: the caller's due and overdue logs for the
      next seven days. `today` stands for the database's CURRENT_DATE. */
  function GetDashboardMaintenanceSummary(s: Store, user: Option<Id>, today: Day): (o: Outcome)
    ensures o.store == s
    ensures !SignedIn(user) ==> o == Unauthenticated(s)
    ensures o.response.status == 401 <==> !SignedIn(user)
    ensures SignedIn(user) ==>
              && o.response.status == 200
              && o.response.body.DueList?
              && (forall row :: row in o.response.body.rows ==>
                    && row.maintenance in s.maintenances
                    && IsDue(row.maintenance, today + 7)
                    && exists a :: && a in s.assets && a.id == row.maintenance.assetId && a.userId == user.value
                                   && row.assetName == a.name && row.assetDescription == a.description)
              && (forall m, a ::
                    (m in s.maintenances && a in s.assets && a.id == m.assetId && a.userId == user.value
                     && IsDue(m, today + 7)) ==> DueRow(m, a.name, a.description) in o.response.body.rows)
              && SortedBy(o.response.body.rows, DueOrder)
  {
    if !SignedIn(user) then Unauthenticated(s)
    else Outcome(Response(200, DueList(GetUpcomingAndOverdueMaintenances(s, user.value, today, DefaultDaysAhead))), s)
  }

  /** A log created through the handler is on its owner's dashboard exactly
      when it was created unfinished with a due date within the next seven
      days (overdue included). */
  lemma CreatedLogOnDashboard(s: Store, newId: Id, now: Timestamp, u: Id, body: MaintenanceBody, today: Day)
    requires CreateMaintenanceLog(s, newId, now, Some(u), body).response.status == 201
    ensures var o := CreateMaintenanceLog(s, newId, now, Some(u), body);
            var m := o.response.body.maintenance;
            var a := AssetService.GetAssetByIdAndUserId(s, m.assetId, u).value;
            var rows := GetDashboardMaintenanceSummary(o.store, Some(u), today).response.body.rows;
            && ((exists row :: row in rows && row.maintenance == m) <==>
                  && !TruthyFlag(body.isCompleted) && TruthyDate(body.nextDueDate)
                  && body.nextDueDate.value.day <= today + 7)
            && ((!TruthyFlag(body.isCompleted) && TruthyDate(body.nextDueDate)
                 && body.nextDueDate.value.day <= today + 7) ==> DueRow(m, a.name, a.description) in rows)
  {
    var o := CreateMaintenanceLog(s, newId, now, Some(u), body);
    var m := o.response.body.maintenance;
    var a := AssetService.GetAssetByIdAndUserId(s, m.assetId, u).value;
    assert m in o.store.maintenances && a in o.store.assets;
  }

  /** Cross-user isolation: on an asset the caller does not own, every
      maintenance handler past the body checks answers 404 and leaves the
      store as it was, whatever logs the asset has. */
  lemma ForeignAssetIsOpaque(s: Store, newId: Id, now: Timestamp, u: Id, assetId: Id, maintenanceId: Id,
                             create: MaintenanceBody, edit: MaintenancePatch)
    requires u != ""
    requires forall a :: a in s.assets ==> !(a.id == assetId && a.userId == u)
    ensures GetAssetMaintenanceLogs(s, Some(u), assetId) == Reply(s, 404, AssetNotFoundToView)
    ensures GetMaintenanceLog(s, Some(u), assetId, maintenanceId) == Reply(s, 404, AssetNotFoundToView)
    ensures DeleteMaintenanceLog(s, Some(u), assetId, maintenanceId) == Reply(s, 404, AssetNotFoundToDelete)
    ensures !NoFields(edit) && !CompletedWithoutDate(edit) ==>
              UpdateMaintenanceLog(s, now, Some(u), assetId, maintenanceId, edit) == Reply(s, 404, AssetNotFoundToUpdate)
    ensures create.assetId == Given(assetId) && assetId != "" && TruthyText(create.serviceDescription)
              && !(TruthyFlag(create.isCompleted) && !TruthyDate(create.completionDate)) ==>
              CreateMaintenanceLog(s, newId, now, Some(u), create) == Reply(s, 404, AssetNotFoundToAdd)
  {
  }

  /** A 201 followed by a read of the new log under its asset finds it. */
  lemma CreatedLogIsReadable(s: Store, newId: Id, now: Timestamp, user: Option<Id>, body: MaintenanceBody)
    requires forall m :: m in s.maintenances ==> m.id != newId
    requires CreateMaintenanceLog(s, newId, now, user, body).response.status == 201
    ensures var o := CreateMaintenanceLog(s, newId, now, user, body);
            var m := o.response.body.maintenance;
            GetMaintenanceLog(o.store, user, m.assetId, newId) == Outcome(Response(200, MaintenanceWrapped(m)), o.store)
  {
    CreateThenGet(s, newId, now, Normalized(body));
  }

  /** Validation comes before any store access: whether a request is
      answered 400 depends on the caller and the body alone. */
  lemma BadRequestIgnoresStore(s1: Store, s2: Store, newId: Id, now: Timestamp, user: Option<Id>,
                               assetId: Id, maintenanceId: Id, create: MaintenanceBody, edit: MaintenancePatch)
    ensures CreateMaintenanceLog(s1, newId, now, user, create).response.status == 400
        <==> CreateMaintenanceLog(s2, newId, now, user, create).response.status == 400
    ensures UpdateMaintenanceLog(s1, now, user, assetId, maintenanceId, edit).response.status == 400
        <==> UpdateMaintenanceLog(s2, now, user, assetId, maintenanceId, edit).response.status == 400
  {
  }

  /** The completion check reads the body only: clearing the date of a log
      already marked completed is accepted, and the row stays completed
      without a completion date. */
  lemma ClearingDateKeepsCompletion(s: Store, now: Timestamp, u: Id, assetId: Id, maintenanceId: Id)
    requires u != "" && Owns(s, u, assetId)
    requires GetMaintenanceByIdAndAssetId(s, maintenanceId, assetId).Some?
    requires GetMaintenanceByIdAndAssetId(s, maintenanceId, assetId).value.isCompleted == Some(true)
    ensures var o := UpdateMaintenanceLog(s, now, Some(u), assetId, maintenanceId,
                                          MaintenancePatch(Absent, Given(Blank), Absent, Absent, Absent));
            && o.response.status == 200
            && o.response.body.maintenance.isCompleted == Some(true)
            && o.response.body.maintenance.completionDate.None?
  {
  }

  /** Conversely, marking a log completed without a date in the same body is
      refused even when the stored row already has one. */
  lemma StoredDateIsNotEnough(s: Store, now: Timestamp, u: Id, assetId: Id, maintenanceId: Id)
    requires u != ""
    ensures UpdateMaintenanceLog(s, now, Some(u), assetId, maintenanceId,
                                 MaintenancePatch(Absent, Absent, Absent, Absent, Given(true)))
         == Reply(s, 400, CompletionDateRequired)
  {
  }
}

=== FILE: maintenance_service.dfy ===
/** The maintenance service: one SQL statement per operation on the
    `maintenances` table, keyed by `(id, asset_id)`, plus the due-date
    summary, a join with `assets` filtered by owner and date window. */
module MaintenanceService {
  import opened Wrappers
  import opened Relational
  import opened Json
  import opened Schema

  /** `WHERE id = $1 AND asset_id = $2`. */
  function Keyed(maintenanceId: Id, assetId: Id): Maintenance -> bool {
    (m: Maintenance) => m.id == maintenanceId && m.assetId == assetId
  }

  /** `WHERE asset_id = $1`. */
  function OfAsset(assetId: Id): Maintenance -> bool {
    (m: Maintenance) => m.assetId == assetId
  }

  /** `ORDER BY created_at DESC`. */
  predicate CreatedDesc(a: Maintenance, b: Maintenance) {
    a.createdAt >= b.createdAt
  }

  lemma CreatedDescIsTotalPreorder()
    ensures TotalPreorder(CreatedDesc)
  {
  }

  /** What the controller hands to `createMaintenance`. */
  datatype NewMaintenance = NewMaintenance(
    assetId: Id,
    serviceDescription: string,
    completionDate: Field<DateText>,
    nextDueDate: Field<DateText>,
    notes: Field<string>,
    isCompleted: Field<bool>)

  /** `INSERT INTO maintenances ...`: a missing or empty date binds NULL
      (`|| null`), the flag defaults to false (`?? false`), and the key and
      timestamps come from the table defaults (`newId`, `now`). */
  function CreateMaintenance(s: Store, newId: Id, now: Timestamp, input: NewMaintenance): (w: Write<Maintenance>)
    ensures w.result.id == newId && w.result.assetId == input.assetId
    ensures w.result.serviceDescription == input.serviceDescription
    ensures w.result.completionDate.None? <==> !TruthyDate(input.completionDate)
    ensures w.result.completionDate.Some? ==> input.completionDate == Given(Date(w.result.completionDate.value))
    ensures w.result.nextDueDate.None? <==> !TruthyDate(input.nextDueDate)
    ensures w.result.nextDueDate.Some? ==> input.nextDueDate == Given(Date(w.result.nextDueDate.value))
    ensures w.result.notes.Some? <==> input.notes.Given?
    ensures input.notes.Given? ==> w.result.notes.value == input.notes.value
    ensures w.result.isCompleted == Some(TruthyFlag(input.isCompleted))
    ensures w.result.createdAt == now && w.result.updatedAt == now
    ensures w.store.maintenances == s.maintenances + [w.result]
    ensures w.store.users == s.users && w.store.assets == s.assets
  {
    var m := Maintenance(newId, input.assetId, input.serviceDescription,
                         DateOrNull(input.completionDate), DateOrNull(input.nextDueDate),
                         Nullable(input.notes), Some(FlagOrFalse(input.isCompleted)), now, now);
    Write(s.(maintenances := s.maintenances + [m]), m)
  }

  /** `SELECT ... WHERE asset_id = $1 ORDER BY created_at DESC`. */
  function GetMaintenanceLogsByAssetId(s: Store, assetId: Id): (r: seq<Maintenance>)
    ensures forall m :: m in r <==> m in s.maintenances && m.assetId == assetId
    ensures forall m :: multiset(r)[m] == if m.assetId == assetId then multiset(s.maintenances)[m] else 0
    ensures forall i, j :: 0 <= i < j < |r| ==> r[i].createdAt >= r[j].createdAt
  {
    var logs := Where(s.maintenances, OfAsset(assetId));
    CreatedDescIsTotalPreorder();
    OrderBySorted(logs, CreatedDesc);
    OrderBy(logs, CreatedDesc)
  }

  /** `SELECT ... WHERE id = $1 AND asset_id = $2`, first row or null: a
      maintenance filed under another asset is not found. */
  function GetMaintenanceByIdAndAssetId(s: Store, maintenanceId: Id, assetId: Id): (r: Option<Maintenance>)
    ensures r.Some? ==> r.value in s.maintenances && r.value.id == maintenanceId && r.value.assetId == assetId
    ensures r.None? <==> forall m :: m in s.maintenances ==> !(m.id == maintenanceId && m.assetId == assetId)
  {
    FirstWhere(s.maintenances, Keyed(maintenanceId, assetId))
  }

  /** What the controller hands to `updateMaintenance`; `Absent` fields are
      left out of the SET list. */
  datatype MaintenancePatch = MaintenancePatch(
    serviceDescription: Field<string>,
    completionDate: Field<DateText>,
    nextDueDate: Field<DateText>,
    notes: Field<string>,
    isCompleted: Field<bool>)

  /** A date column under a patch: kept when absent, cleared by null or by
      the empty string (`=== '' ? null : x`), set by a date. */
  function DateColumn(f: Field<DateText>, current: Option<Day>): (r: Option<Day>)
    ensures f.Absent? ==> r == current
    ensures f.Null? || f == Given(Blank) ==> r == None
    ensures f.Given? && f.value.Date? ==> r == Some(f.value.day)
  {
    match f
    case Absent => current
    case Null => None
    case Given(Blank) => None
    case Given(Date(d)) => Some(d)
  }

  /** The SET list of a maintenance update applied to one row: the supplied
      columns, and always `updated_at = now`. */
  function Patched(m: Maintenance, patch: MaintenancePatch, now: Timestamp): Maintenance {
    m.(serviceDescription := if patch.serviceDescription.Given? then patch.serviceDescription.value else m.serviceDescription,
       completionDate := DateColumn(patch.completionDate, m.completionDate),
       nextDueDate := DateColumn(patch.nextDueDate, m.nextDueDate),
       notes := if patch.notes.Absent? then m.notes else Nullable(patch.notes),
       isCompleted := if patch.isCompleted.Absent? then m.isCompleted else Nullable(patch.isCompleted),
       updatedAt := now)
  }

  function Patch(patch: MaintenancePatch, now: Timestamp): Maintenance -> Maintenance {
    (m: Maintenance) => Patched(m, patch, now)
  }

  /** The `maintenances` table after the UPDATE: rows under the key are
      patched in place and stamped with `now`, every other row is kept, and
      no row changes its key, asset or creation time. */
  function PatchRows(rows: seq<Maintenance>, maintenanceId: Id, assetId: Id, patch: MaintenancePatch, now: Timestamp)
    : (t: seq<Maintenance>)
    ensures |t| == |rows|
    ensures forall i :: 0 <= i < |rows| && !(rows[i].id == maintenanceId && rows[i].assetId == assetId) ==> t[i] == rows[i]
    ensures forall i :: 0 <= i < |rows| && rows[i].id == maintenanceId && rows[i].assetId == assetId ==>
              && t[i].serviceDescription ==
                   (if patch.serviceDescription.Given? then patch.serviceDescription.value else rows[i].serviceDescription)
              && t[i].completionDate == DateColumn(patch.completionDate, rows[i].completionDate)
              && t[i].nextDueDate == DateColumn(patch.nextDueDate, rows[i].nextDueDate)
              && t[i].notes == (if patch.notes.Absent? then rows[i].notes else Nullable(patch.notes))
              && t[i].isCompleted == (if patch.isCompleted.Absent? then rows[i].isCompleted else Nullable(patch.isCompleted))
              && t[i].updatedAt == now
    ensures forall i :: 0 <= i < |rows| ==>
              t[i].id == rows[i].id && t[i].assetId == rows[i].assetId && t[i].createdAt == rows[i].createdAt
  {
    UpdateWhere(rows, Keyed(maintenanceId, assetId), Patch(patch, now))
  }

  /** `UPDATE maintenances SET ..., updated_at = now WHERE id = $n AND
      asset_id = $m RETURNING ...`. The SET list is never empty because
      `updated_at` is always in it, so the statement always runs. With
      `service_description` taken to be NOT NULL (an assumption of this
      model), binding NULL to it fails only when a row matches. */
  function UpdateMaintenance(s: Store, maintenanceId: Id, assetId: Id, patch: MaintenancePatch, now: Timestamp)
    : (r: Result<Write<Option<Maintenance>>, DbError>)
    ensures r.Failure? <==>
              patch.serviceDescription.Null? && GetMaintenanceByIdAndAssetId(s, maintenanceId, assetId).Some?
    ensures r.Failure? ==> r.error == NotNullViolation
    ensures r.Success? && r.value.result.None? <==>
              GetMaintenanceByIdAndAssetId(s, maintenanceId, assetId).None?
    ensures r.Success? && r.value.result.None? ==> r.value.store == s
    ensures r.Success? && r.value.result.Some? ==>
              && r.value.result.value ==
                   Patched(GetMaintenanceByIdAndAssetId(s, maintenanceId, assetId).value, patch, now)
              && r.value.store == s.(maintenances := PatchRows(s.maintenances, maintenanceId, assetId, patch, now))
  {
    var found := GetMaintenanceByIdAndAssetId(s, maintenanceId, assetId);
    if found.None? then Success(Write(s, None))
    else if patch.serviceDescription.Null? then Failure(NotNullViolation)
    else Success(Write(s.(maintenances := PatchRows(s.maintenances, maintenanceId, assetId, patch, now)),
                       Some(Patched(found.value, patch, now))))
  }

  /** `DELETE FROM maintenances WHERE id = $1 AND asset_id = $2`, reporting
      whether a row went. */
  function DeleteMaintenance(s: Store, maintenanceId: Id, assetId: Id): (w: Write<bool>)
    ensures w.result <==> exists m :: m in s.maintenances && m.id == maintenanceId && m.assetId == assetId
    ensures forall m :: m in w.store.maintenances <==>
              m in s.maintenances && !(m.id == maintenanceId && m.assetId == assetId)
    ensures forall m: Maintenance :: !(m.id == maintenanceId && m.assetId == assetId) ==>
              multiset(w.store.maintenances)[m] == multiset(s.maintenances)[m]
    ensures w.store.users == s.users && w.store.assets == s.assets
  {
    var p := Keyed(maintenanceId, assetId);
    var kept := Where(s.maintenances, (m: Maintenance) => !p(m));
    var gone := Where(s.maintenances, p);
    Write(s.(maintenances := kept), |gone| > 0)
  }

  /** Creating and then reading back by the new key and the asset yields the
      created row, and it is listed under its asset. */
  lemma CreateThenGet(s: Store, newId: Id, now: Timestamp, input: NewMaintenance)
    requires forall m :: m in s.maintenances ==> m.id != newId
    ensures var w := CreateMaintenance(s, newId, now, input);
            && GetMaintenanceByIdAndAssetId(w.store, newId, input.assetId) == Some(w.result)
            && w.result in GetMaintenanceLogsByAssetId(w.store, input.assetId)
  {
  }

  /** Reading back an updated maintenance yields what the update returned. */
  lemma {:induction false} UpdateThenGet(s: Store, maintenanceId: Id, assetId: Id, patch: MaintenancePatch, now: Timestamp)
    ensures var r := UpdateMaintenance(s, maintenanceId, assetId, patch, now);
            r.Success? ==> GetMaintenanceByIdAndAssetId(r.value.store, maintenanceId, assetId) == r.value.result
  {
    var r := UpdateMaintenance(s, maintenanceId, assetId, patch, now);
    if r.Success? && r.value.result.Some? {
      var p := Keyed(maintenanceId, assetId);
      var f := Patch(patch, now);
      var rows := PatchRows(s.maintenances, maintenanceId, assetId, patch, now);
      assert rows == UpdateWhere(s.maintenances, p, f);
      WhereAfterUpdate(s.maintenances, p, f);
      var hits := Where(s.maintenances, p);
      assert FirstWhere(s.maintenances, p) == Some(hits[0]);
      assert Where(rows, p) == Map(hits, f);
      assert FirstWhere(rows, p) == Some(Map(hits, f)[0]);
    }
  }

  /** A delete reports `true` exactly when the read by the same key would
      have found the maintenance, and afterwards the read finds nothing. */
  lemma DeleteAgreesWithGet(s: Store, maintenanceId: Id, assetId: Id)
    ensures DeleteMaintenance(s, maintenanceId, assetId).result <==>
              GetMaintenanceByIdAndAssetId(s, maintenanceId, assetId).Some?
    ensures GetMaintenanceByIdAndAssetId(DeleteMaintenance(s, maintenanceId, assetId).store, maintenanceId, assetId) == None
  {
  }

  lemma CreateMaintenanceKeepsValid(s: Store, newId: Id, now: Timestamp, input: NewMaintenance)
    requires Valid(s)
    requires forall m :: m in s.maintenances ==> m.id != newId
    ensures Valid(CreateMaintenance(s, newId, now, input).store)
  {
    var c := CreateMaintenance(s, newId, now, input).store.maintenances;
    forall i | 0 <= i < |s.maintenances|
      ensures c[i] == s.maintenances[i] && MaintenanceKey(c[i]) != MaintenanceKey(c[|s.maintenances|])
    {
      assert s.maintenances[i] in s.maintenances;
    }
  }

  lemma UpdateMaintenanceKeepsValid(s: Store, maintenanceId: Id, assetId: Id, patch: MaintenancePatch, now: Timestamp)
    requires Valid(s)
    requires UpdateMaintenance(s, maintenanceId, assetId, patch, now).Success?
    ensures Valid(UpdateMaintenance(s, maintenanceId, assetId, patch, now).value.store)
  {
  }

  lemma DeleteMaintenanceKeepsValid(s: Store, maintenanceId: Id, assetId: Id)
    requires Valid(s)
    ensures Valid(DeleteMaintenance(s, maintenanceId, assetId).store)
  {
    var p := Keyed(maintenanceId, assetId);
    WhereKeepsUnique(s.maintenances, (m: Maintenance) => !p(m), MaintenanceKey);
  }

  // ----- Due-date summary -----

  /** The look-ahead window the dashboard asks for. */
  const DefaultDaysAhead := 7

  /** `m.is_completed = FALSE AND m.next_due_date IS NOT NULL AND
      m.next_due_date <= CURRENT_DATE + daysAhead`. Under SQL's three-valued
      logic a NULL `is_completed` fails the first test. */
  predicate IsDue(m: Maintenance, limit: Day) {
    m.isCompleted == Some(false) && m.nextDueDate.Some? && m.nextDueDate.value <= limit
  }

  /** `JOIN assets a ON m.asset_id = a.id WHERE a.user_id = $1` and the due test. */
  predicate JoinMatch(m: Maintenance, a: Asset, userId: Id, limit: Day) {
    a.id == m.assetId && a.userId == userId && IsDue(m, limit)
  }

  /** A joined row carries the asset's name and description. */
  function Joined(m: Maintenance, a: Asset): DueRow {
    DueRow(m, a.name, a.description)
  }

  /** The joined rows one maintenance contributes. */
  function JoinOne(m: Maintenance, assets: seq<Asset>, userId: Id, limit: Day): (r: seq<DueRow>)
    ensures forall row :: row in r ==> exists a :: a in assets && JoinMatch(m, a, userId, limit) && row == Joined(m, a)
    ensures forall a :: a in assets && JoinMatch(m, a, userId, limit) ==> Joined(m, a) in r
  {
    if |assets| == 0 then []
    else
      var rest := JoinOne(m, assets[1..], userId, limit);
      assert forall a :: a in assets[1..] ==> a in assets;
      assert forall a :: a in assets ==> a == assets[0] || a in assets[1..];
      if JoinMatch(m, assets[0], userId, limit) then [Joined(m, assets[0])] + rest else rest
  }

  /** The join of the filtered maintenances with the caller's assets. */
  function Join(ms: seq<Maintenance>, assets: seq<Asset>, userId: Id, limit: Day): (r: seq<DueRow>)
    ensures forall row :: row in r ==>
              && row.maintenance in ms
              && exists a :: a in assets && JoinMatch(row.maintenance, a, userId, limit) && row == Joined(row.maintenance, a)
    ensures forall m, a :: m in ms && a in assets && JoinMatch(m, a, userId, limit) ==> Joined(m, a) in r
  {
    if |ms| == 0 then []
    else
      var here := JoinOne(ms[0], assets, userId, limit);
      var rest := Join(ms[1..], assets, userId, limit);
      assert forall m :: m in ms[1..] ==> m in ms;
      assert forall m :: m in ms ==> m == ms[0] || m in ms[1..];
      here + rest
  }

  /** `x <= y` under `ASC` (NULLS LAST, PostgreSQL's default for ASC). */
  predicate AscNullsLast(x: Option<Day>, y: Option<Day>) {
    y.None? || (x.Some? && x.value <= y.value)
  }

  /** `x <= y` under `DESC` (NULLS FIRST, PostgreSQL's default for DESC). */
  predicate DescNullsFirst(x: Option<Day>, y: Option<Day>) {
    x.None? || (y.Some? && x.value >= y.value)
  }

  /** `ORDER BY m.next_due_date ASC, m.completion_date DESC`. */
  predicate DueOrder(x: DueRow, y: DueRow) {
    var a := x.maintenance;
    var b := y.maintenance;
    || (AscNullsLast(a.nextDueDate, b.nextDueDate) && a.nextDueDate != b.nextDueDate)
    || (a.nextDueDate == b.nextDueDate && DescNullsFirst(a.completionDate, b.completionDate))
  }

  lemma DueOrderIsTotalPreorder()
    ensures TotalPreorder(DueOrder)
  {
  }

  /** `getUpcomingAndOverdueMaintenances(user_id, daysAhead = 7)`: the
      caller's unfinished maintenances due on or before `today + daysAhead`
      (overdue ones included), joined with their asset and sorted by due
      date, then by completion date descending. */
  function GetUpcomingAndOverdueMaintenances(s: Store, userId: Id, today: Day, daysAhead: int := DefaultDaysAhead)
    : (r: seq<DueRow>)
    ensures forall row :: row in r ==>
              && row.maintenance in s.maintenances
              && IsDue(row.maintenance, today + daysAhead)
              && exists a :: a in s.assets && a.id == row.maintenance.assetId && a.userId == userId
                               && row.assetName == a.name && row.assetDescription == a.description
    ensures forall m, a ::
              (m in s.maintenances && a in s.assets && a.id == m.assetId && a.userId == userId
               && IsDue(m, today + daysAhead)) ==> DueRow(m, a.name, a.description) in r
    ensures SortedBy(r, DueOrder)
  {
    var rows := Join(s.maintenances, s.assets, userId, today + daysAhead);
    DueOrderIsTotalPreorder();
    OrderBySorted(rows, DueOrder);
    OrderBy(rows, DueOrder)
  }

  /** In rows sorted by `DueOrder` that all carry a due date, a row due
      strictly earlier comes first. */
  lemma SortedByDueDate(r: seq<DueRow>)
    requires SortedBy(r, DueOrder)
    requires forall k :: 0 <= k < |r| ==> r[k].maintenance.nextDueDate.Some?
    ensures forall i, j ::
              (0 <= i < |r| && 0 <= j < |r| &&
               r[i].maintenance.nextDueDate.value < r[j].maintenance.nextDueDate.value) ==> i < j
  {
    forall i, j | 0 <= i < j < |r|
      ensures r[i].maintenance.nextDueDate.value <= r[j].maintenance.nextDueDate.value
    {
      assert DueOrder(r[i], r[j]);
    }
  }

  /** The summary lists soonest-due first: a row due strictly earlier than
      another comes before it. */
  lemma SummaryByDueDate(s: Store, userId: Id, today: Day, daysAhead: int)
    ensures var r := GetUpcomingAndOverdueMaintenances(s, userId, today, daysAhead);
            forall i, j ::
              (0 <= i < |r| && 0 <= j < |r| &&
               r[i].maintenance.nextDueDate.value < r[j].maintenance.nextDueDate.value) ==> i < j
  {
    var r := GetUpcomingAndOverdueMaintenances(s, userId, today, daysAhead);
    forall k | 0 <= k < |r|
      ensures r[k].maintenance.nextDueDate.Some?
    {
      assert r[k] in r;
    }
    SortedByDueDate(r);
  }

  /** A maintenance just marked completed leaves the summary. */
  lemma CompletedLeavesSummary(s: Store, maintenanceId: Id, assetId: Id, patch: MaintenancePatch, now: Timestamp,
                               userId: Id, today: Day, daysAhead: int)
    requires patch.isCompleted == Given(true)
    ensures var r := UpdateMaintenance(s, maintenanceId, assetId, patch, now);
            r.Success? ==>
              forall row :: row in GetUpcomingAndOverdueMaintenances(r.value.store, userId, today, daysAhead) ==>
                !(row.maintenance.id == maintenanceId && row.maintenance.assetId == assetId)
  {
  }
}

=== FILE: relational.dfy ===
/** The relational building blocks the services' SQL statements are made of:
    WHERE (`Where`), `rows[0] || null` (`FirstWhere`), UPDATE ... WHERE
    (`UpdateWhere`) and ORDER BY (`OrderBy`). A table is a sequence of rows. */
module Relational {
  import opened Wrappers

  /** The rows satisfying `p`, each with its multiplicity, in table order. */
  function Where<T(!new)>(rows: seq<T>, p: T -> bool): (r: seq<T>)
    ensures forall x :: multiset(r)[x] == if p(x) then multiset(rows)[x] else 0
    ensures forall x :: x in r <==> x in rows && p(x)
    ensures |r| <= |rows|
  {
    if |rows| == 0 then []
    else
      assert rows == [rows[0]] + rows[1..];
      if p(rows[0]) then [rows[0]] + Where(rows[1..], p)
      else Where(rows[1..], p)
  }

  /** The first row satisfying `p`, or `None` when no row does. */
  function FirstWhere<T(!new)>(rows: seq<T>, p: T -> bool): (r: Option<T>)
    ensures r.Some? ==> r.value in rows && p(r.value)
    ensures r.None? <==> forall x :: x in rows ==> !p(x)
  {
    var hits := Where(rows, p);
    if |hits| == 0 then None else assert hits[0] in hits; Some(hits[0])
  }

  /** The table after `UPDATE ... SET f WHERE p`: every matching row is
      replaced in place by `f` of it, every other row is kept. */
  function UpdateWhere<T>(rows: seq<T>, p: T -> bool, f: T -> T): (r: seq<T>)
    ensures |r| == |rows|
    ensures forall i :: 0 <= i < |rows| ==> r[i] == if p(rows[i]) then f(rows[i]) else rows[i]
  {
    if |rows| == 0 then []
    else [if p(rows[0]) then f(rows[0]) else rows[0]] + UpdateWhere(rows[1..], p, f)
  }

  /** `UPDATE ... RETURNING` yields the updated rows in table order: the rows
      an update leaves matching are exactly the images of the rows that matched. */
  lemma {:induction false} WhereAfterUpdate<T(!new)>(rows: seq<T>, p: T -> bool, f: T -> T)
    requires forall x :: p(x) ==> p(f(x))
    ensures Where(UpdateWhere(rows, p, f), p) == Map(Where(rows, p), f)
  {
    if |rows| > 0 {
      WhereAfterUpdate(rows[1..], p, f);
      assert UpdateWhere(rows, p, f)[1..] == UpdateWhere(rows[1..], p, f);
    }
  }

  /** `f` applied to every row. */
  function Map<T, U>(rows: seq<T>, f: T -> U): (r: seq<U>)
    ensures |r| == |rows|
    ensures forall i :: 0 <= i < |rows| ==> r[i] == f(rows[i])
  {
    if |rows| == 0 then [] else [f(rows[0])] + Map(rows[1..], f)
  }

  /** `le` can serve as an ORDER BY comparison: it is total and transitive. */
  ghost predicate TotalPreorder<T(!new)>(le: (T, T) -> bool) {
    && (forall x, y :: le(x, y) || le(y, x))
    && (forall x, y, z :: le(x, y) && le(y, z) ==> le(x, z))
  }

  ghost predicate SortedBy<T>(rows: seq<T>, le: (T, T) -> bool) {
    forall i, j :: 0 <= i < j < |rows| ==> le(rows[i], rows[j])
  }

  /** `x` placed before the first row it is not after. */
  function Insert<T>(x: T, rows: seq<T>, le: (T, T) -> bool): (r: seq<T>)
    ensures multiset(r) == multiset(rows) + multiset{x}
  {
    if |rows| == 0 then [x]
    else if le(x, rows[0]) then [x] + rows
    else
      assert rows == [rows[0]] + rows[1..];
      [rows[0]] + Insert(x, rows[1..], le)
  }

  /** ORDER BY `le`: the same rows, rearranged (ties keep table order). */
  function OrderBy<T(!new)>(rows: seq<T>, le: (T, T) -> bool): (r: seq<T>)
    ensures multiset(r) == multiset(rows)
    ensures forall x :: x in r <==> x in rows
  {
    if |rows| == 0 then []
    else
      assert rows == [rows[0]] + rows[1..];
      var r := Insert(rows[0], OrderBy(rows[1..], le), le);
      assert forall x :: x in r <==> x in multiset(r);
      assert forall x :: x in rows <==> x in multiset(rows);
      r
  }

  lemma {:induction false} InsertSorted<T(!new)>(x: T, rows: seq<T>, le: (T, T) -> bool)
    requires TotalPreorder(le)
    requires SortedBy(rows, le)
    ensures SortedBy(Insert(x, rows, le), le)
  {
    if |rows| > 0 && !le(x, rows[0]) {
      var tail := rows[1..];
      assert SortedBy(tail, le);
      InsertSorted(x, tail, le);
      var rest := Insert(x, tail, le);
      assert le(rows[0], x);
      forall y | y in rest
        ensures le(rows[0], y)
      {
        assert y in multiset(rest);
        if y != x {
          assert y in multiset(tail);
          var k :| 0 <= k < |tail| && tail[k] == y;
          assert rows[k + 1] == y;
        }
      }
      var r := [rows[0]] + rest;
      forall i, j | 0 <= i < j < |r|
        ensures le(r[i], r[j])
      {
        if i == 0 {
          assert r[j] == rest[j - 1];
          assert r[j] in rest;
        } else {
          assert r[i] == rest[i - 1] && r[j] == rest[j - 1];
        }
      }
    }
  }

  /** ORDER BY really orders. */
  lemma {:induction false} OrderBySorted<T(!new)>(rows: seq<T>, le: (T, T) -> bool)
    requires TotalPreorder(le)
    ensures SortedBy(OrderBy(rows, le), le)
  {
    if |rows| > 0 {
      OrderBySorted(rows[1..], le);
      InsertSorted(rows[0], OrderBy(rows[1..], le), le);
    }
  }

  /** No two rows share a key: a PRIMARY KEY or UNIQUE column. */
  ghost predicate UniqueBy<T>(rows: seq<T>, key: T -> string) {
    forall i, j :: 0 <= i < |rows| && 0 <= j < |rows| && key(rows[i]) == key(rows[j]) ==> i == j
  }

  /** Deleting rows keeps a key unique. */
  lemma {:induction false} WhereKeepsUnique<T(!new)>(rows: seq<T>, p: T -> bool, key: T -> string)
    requires UniqueBy(rows, key)
    ensures UniqueBy(Where(rows, p), key)
  {
    if |rows| > 0 {
      var tail := rows[1..];
      assert UniqueBy(tail, key) by {
        forall i, j | 0 <= i < |tail| && 0 <= j < |tail| && key(tail[i]) == key(tail[j])
          ensures i == j
        {
          assert rows[i + 1] == tail[i] && rows[j + 1] == tail[j];
        }
      }
      WhereKeepsUnique(tail, p, key);
      if p(rows[0]) {
        var w := Where(tail, p);
        var r := [rows[0]] + w;
        forall j | 0 < j < |r|
          ensures key(r[j]) != key(rows[0])
        {
          assert r[j] == w[j - 1] && r[j] in w;
          var k :| 0 <= k < |tail| && tail[k] == r[j];
          assert rows[k + 1] == r[j];
        }
        forall i, j | 0 < i < |r| && 0 < j < |r|
          ensures key(r[i]) == key(r[j]) ==> i == j
        {
          assert r[i] == w[i - 1] && r[j] == w[j - 1];
        }
      }
    }
  }

  /** ORDER BY on text, compared character by character (the C collation). */
  predicate TextLe(a: string, b: string) {
    |a| == 0 || (|b| > 0 && (a[0] < b[0] || (a[0] == b[0] && TextLe(a[1..], b[1..]))))
  }

  lemma {:induction false} TextLeTotal(a: string, b: string)
    ensures TextLe(a, b) || TextLe(b, a)
  {
    if |a| > 0 && |b| > 0 && a[0] == b[0] {
      TextLeTotal(a[1..], b[1..]);
    }
  }

  lemma {:induction false} TextLeTransitive(a: string, b: string, c: string)
    requires TextLe(a, b) && TextLe(b, c)
    ensures TextLe(a, c)
  {
    if |a| > 0 && a[0] == b[0] && b[0] == c[0] {
      TextLeTransitive(a[1..], b[1..], c[1..]);
    }
  }

  /** Filtering by a narrower condition after a wider one is filtering by
      the narrower one alone: a query under the key `(id, owner)` sees
      exactly what it would see in the owner's rows. */
  lemma {:induction false} WhereNarrow<T(!new)>(rows: seq<T>, p: T -> bool, q: T -> bool)
    requires forall x :: q(x) ==> p(x)
    ensures Where(Where(rows, p), q) == Where(rows, q)
  {
    if |rows| > 0 {
      WhereNarrow(rows[1..], p, q);
    }
  }

  lemma FirstWhereNarrow<T(!new)>(rows: seq<T>, p: T -> bool, q: T -> bool)
    requires forall x :: q(x) ==> p(x)
    ensures FirstWhere(Where(rows, p), q) == FirstWhere(rows, q)
  {
    WhereNarrow(rows, p, q);
  }
}

=== FILE: schema.dfy ===
/** The three tables (`users`, `assets`, `maintenances`) and the store that
    holds them. Dates are day numbers, timestamps are plain integers. The
    table definitions are not part of this model: the constraints below are
    assumptions drawn from how the services use the tables. */
module Schema {
  import opened Wrappers
  import opened Relational

  type Id = string
  type Day = int
  type Timestamp = int

  datatype User = User(
    id: Id,
    username: string,
    email: string,
    passwordHash: string,
    createdAt: Timestamp,
    updatedAt: Timestamp)

  datatype Asset = Asset(
    id: Id,
    userId: Id,
    name: string,
    description: Option<string>,
    createdAt: Timestamp,
    updatedAt: Timestamp)

  /** `isCompleted` is taken to be nullable: an update may bind `null` to it. */
  datatype Maintenance = Maintenance(
    id: Id,
    assetId: Id,
    serviceDescription: string,
    completionDate: Option<Day>,
    nextDueDate: Option<Day>,
    notes: Option<string>,
    isCompleted: Option<bool>,
    createdAt: Timestamp,
    updatedAt: Timestamp)

  /** A maintenance row joined with its asset's name and description. */
  datatype DueRow = DueRow(maintenance: Maintenance, assetName: string, assetDescription: Option<string>)

  datatype Store = Store(users: seq<User>, assets: seq<Asset>, maintenances: seq<Maintenance>)

  /** A statement's effect: the new store and what the statement returned. */
  datatype Write<+R> = Write(store: Store, result: R)

  /** The database errors the model represents: a unique violation (SQLSTATE
      23505, the only code the user service tests for) and a NOT NULL
      violation (23502, which the asset and maintenance services, like any
      other error, re-throw as a generic failure). */
  datatype DbError = UniqueViolation | NotNullViolation

  function UserKey(u: User): Id { u.id }
  function UsernameKey(u: User): string { u.username }
  function EmailKey(u: User): string { u.email }
  function AssetKey(a: Asset): Id { a.id }
  function MaintenanceKey(m: Maintenance): Id { m.id }

  /** The key constraints assumed of the schema: primary keys, and usernames
      and e-mails each unique in their own column. */
  ghost predicate Valid(s: Store) {
    && UniqueBy(s.users, UserKey)
    && UniqueBy(s.users, UsernameKey)
    && UniqueBy(s.users, EmailKey)
    && UniqueBy(s.assets, AssetKey)
    && UniqueBy(s.maintenances, MaintenanceKey)
  }
}

=== FILE: user_service.dfy ===
/** The user service: lookup by username-or-e-mail and registration insert.
    Password hashing is a parameter (`hash`), standing for bcrypt. */
module UserService {
  import opened Wrappers
  import opened Relational
  import opened Schema

  /** `WHERE username = $1 OR email = $2`, both bound to the identifier. */
  function Identifies(identifier: string): User -> bool {
    (u: User) => u.username == identifier || u.email == identifier
  }

  /** `findUserByIdentifier`: the first user whose username or e-mail is
      the identifier, or null. */
  function FindUserByIdentifier(s: Store, identifier: string): (r: Option<User>)
    ensures r.Some? ==> r.value in s.users && (r.value.username == identifier || r.value.email == identifier)
    ensures r.None? <==> forall u :: u in s.users ==> u.username != identifier && u.email != identifier
  {
    FirstWhere(s.users, Identifies(identifier))
  }

  /** A user row as `RETURNING id, username, email, created_at, updated_at`
      gives it back: without the password hash. */
  datatype PublicUser = PublicUser(id: Id, username: string, email: string, createdAt: Timestamp, updatedAt: Timestamp)

  /** The message `createUser` throws on a unique-key violation. */
  const DuplicateUserMessage := "Username or email already exists."

  /** `createUser`: insert the hash of the password, never the password.
      A username or e-mail already present violates a unique constraint
      (SQLSTATE 23505), which is re-thrown as `DuplicateUserMessage` and
      leaves the table as it was. */
  function CreateUser(s: Store, newId: Id, now: Timestamp, username: string, email: string, password: string,
                      hash: string -> string)
    : (r: Result<Write<PublicUser>, string>)
    ensures r.Failure? <==> exists u :: u in s.users && (u.username == username || u.email == email)
    ensures r.Failure? ==> r.error == DuplicateUserMessage
    ensures r.Success? ==>
              && r.value.store.users == s.users + [User(newId, username, email, hash(password), now, now)]
              && r.value.store.assets == s.assets && r.value.store.maintenances == s.maintenances
    ensures r.Success? ==> r.value.result == PublicUser(newId, username, email, now, now)
  {
    if exists u :: u in s.users && (u.username == username || u.email == email) then
      Failure(DuplicateUserMessage)
    else
      var row := User(newId, username, email, hash(password), now, now);
      Success(Write(s.(users := s.users + [row]), PublicUser(newId, username, email, now, now)))
  }

  /** The only row registration adds holds `hash(password)` where the
      password would be. */
  lemma StoresOnlyTheHash(s: Store, newId: Id, now: Timestamp, username: string, email: string, password: string,
                          hash: string -> string)
    requires CreateUser(s, newId, now, username, email, password, hash).Success?
    ensures var t := CreateUser(s, newId, now, username, email, password, hash).value.store;
            forall u :: u in t.users && u !in s.users ==>
              u.passwordHash == hash(password) && u.username == username && u.email == email
  {
  }

  /** Registration keeps the key constraints, the unique usernames and
      e-mails included, provided the sequence hands out an unused key. */
  lemma CreateUserKeepsValid(s: Store, newId: Id, now: Timestamp, username: string, email: string, password: string,
                             hash: string -> string)
    requires Valid(s)
    requires forall u :: u in s.users ==> u.id != newId
    requires CreateUser(s, newId, now, username, email, password, hash).Success?
    ensures Valid(CreateUser(s, newId, now, username, email, password, hash).value.store)
  {
    var t := CreateUser(s, newId, now, username, email, password, hash).value.store.users;
    var n := |s.users|;
    forall i | 0 <= i < n
      ensures t[i] == s.users[i]
      ensures UserKey(t[i]) != UserKey(t[n]) && UsernameKey(t[i]) != UsernameKey(t[n]) && EmailKey(t[i]) != EmailKey(t[n])
    {
      assert s.users[i] in s.users;
    }
  }
}

=== FILE: wrappers.dfy ===
/** Failure-carrying values: `Option` stands for a nullable SQL result or an
    optional JSON value, `Result` for an operation that can throw. */
module Wrappers {

  datatype Option<+T> = None | Some(value: T)

  datatype Result<+T, +E> = Success(value: T) | Failure(error: E)
}
